=== FILE: README.md ===
# Game store: storage, HTTP decisions, catalogue view and admin form

This project models the core of a small game-store web application in Dafny.
The backend keeps games, a single company profile and user accounts in SQLite.
It serves them over a JSON HTTP API with JWT authentication, an admin role and
Stripe checkout. The React frontend shows a searchable, sortable catalogue and
an admin page for editing games.

The model has these modules:

- `Wrappers`: `Option` and `Result`.
- `Text`: JavaScript string helpers (`trim`, `split`, `join`, `parseInt`) on `seq<char>`.
- `Json`: the subset of `JSON.stringify`/`JSON.parse` the store uses, with a parse-of-stringify round trip.
- `Db` (`server/db.js`): the store as an immutable `Store` value. Every query is a function from a store to its result and the next store. Ids follow SQLite `AUTOINCREMENT`, including exhaustion at 2^63-1.
- `Server` (`server/index.js`): the response every route gives for every input. This covers bearer-token authentication, the admin gate, register and login, profile, featured games, checkout and the admin routes.
- `Lists`: filter, insertion sort (stable, like `Array.prototype.sort`) and duplicate removal (like `[...new Set(xs)]`).
- `Catalogue` (`client/src/pages/Games.js`): the search, genre filter and sort pipeline, plus the genre list.
- `AdminForm` (`client/src/pages/Admin.js`): the comma-separated list fields, the payload sent on save, the edit form and the page state after a save.

Prices and ratings are integers in hundredths, so 4.5 stars is 450.
A JavaScript property that is absent (`undefined`) is `None`.
Outside services and built-ins are function parameters:

- bcrypt's hash and compare;
- JWT verification;
- Stripe's session creation;
- `Number`/`parseFloat`;
- `toLowerCase`;
- `Date` parsing;
- `localeCompare`.

## Model

| member | source | states |
|---|---|---|
| Text.Trim | client/src/pages/Admin.js:579 | the result has no JavaScript whitespace at either end and occurs inside the input with only JavaScript whitespace before and after it |
| Text.TrimIdempotent | client/src/pages/Admin.js:579 | trimming twice is trimming once |
| Text.TrimKeepsOut | client/src/pages/Admin.js:579 | trimming never introduces a character (such as a comma) that was not there |
| Text.Split | client/src/pages/Admin.js:579 | `split(',')` yields at least one piece and no piece contains the separator |
| Text.JoinSplit | client/src/pages/Admin.js:579 | joining the pieces of a split with the separator gives back the original text |
| Text.JoinHasItems | client/src/pages/Admin.js:576 | every item occurs in the joined text |
| Text.SplitWithoutSeparator | client/src/pages/Admin.js:579 | text without the separator splits into itself alone |
| Text.SplitAtSeparator | client/src/pages/Admin.js:579 | a separator after a separator-free prefix cuts exactly that prefix off as the first piece |
| Text.Contains | client/src/pages/Games.js:286-287 | `includes` holds exactly when the needle occurs at some position |
| Text.ParseInt | server/index.js:243 | `parseInt` of text that is empty or only white space is NaN (`None`); text whose first character is a digit from 1 to 9 always parses |
| Text.ParseIntOfIntText | server/index.js:243 | `parseInt` of the decimal text of any integer, followed by a non-digit, gives that integer back |
| Text.ParseIntWithoutDigits | server/index.js:243 | `parseInt` of text with no digit is NaN (`None`) |
| Text.ParseIntUnsigned | server/index.js:243 | `parseInt` of text that starts with a digit is the value of its leading digit run |
| Text.ParseIntNegative | server/index.js:243 | a leading minus sign negates the parsed magnitude |
| Text.NatTextValue | server/index.js:243 | the decimal text of a natural number has that number as its digit value |
| Json.Stringify | server/db.js:183-185 | `JSON.stringify` always gives non-empty text whose first character starts a JSON value; Json.ParseOfStringify is its inverse |
| Json.Parse | server/db.js:37 | `JSON.parse` rejects empty text; Json.ParseOfStringify states that it undoes `JSON.stringify` |
| Json.ParseOfStringify | server/db.js:183-185 | `JSON.parse` of `JSON.stringify(j)` gives back `j` for every value the store writes |
| Json.ParseStringified | server/db.js:37 | parsing stops exactly at the end of a stringified value and leaves the rest of the text |
| Db.ParseJsonField | server/db.js:34-41 | a missing or empty column and text that does not parse both give the fallback; otherwise the parsed value |
| Db.SerializeGameRow | server/db.js:43-58 | every column is copied as stored, and screenshots, features and system requirements are decoded with `[]` or the empty requirements as fallback |
| Db.SerializeCompanyRow | server/db.js:60-74 | no row gives null; a row gives the company with id 1, every text column as stored and achievements and team decoded with `[]` as fallback |
| Db.GetCompany | server/db.js:252-255 | the company exactly when a row is stored, read back as the serializer does |
| Db.ParseJsonFieldOfStringify | server/db.js:34-41 | reading back a column written with `JSON.stringify` gives the stored value, never the fallback |
| Db.SortedIds | server/db.js:164 | `ORDER BY id ASC`: the ids strictly ascend and are exactly the table's keys |
| Db.GetGames | server/db.js:163-166 | every game once, in ascending id order, each the serialized form of its row |
| Db.GetGameById | server/db.js:168-171 | a game exactly when the id is present; then its id, title, genre, description, release date, price, rating, image and trailer are the row's, and screenshots, features and system requirements are the row's columns decoded with `[]` or the empty requirements as fallback |
| Db.GetGameByIdAgreesWithGetGames | server/db.js:163-171 | the single-game lookup finds exactly the games of the list and returns the same object |
| Db.GameRowOf | server/db.js:77-90 | a row exists exactly when every NOT NULL column has a value |
| Db.SerializeGameRowOf | server/db.js:43-58 | a stored payload is read back with every scalar copied and every list defaulted as the writer did |
| Db.InsertGame | server/db.js:187-203 | the insert fails (and changes nothing) exactly on a missing NOT NULL value or an exhausted id sequence; otherwise the row lands under the next id |
| Db.CreateGame | server/db.js:173-206 | the created game is the stored payload under a fresh id above every existing one; other tables and rows are unchanged and the game can be read back |
| Db.MergedGameRow | server/db.js:212-244 | every column takes the payload's value when it is present and keeps the stored one otherwise; the three JSON columns read back as that value, with `[]` or the empty requirements when both are missing |
| Db.UpdateGame | server/db.js:208-245 | a missing game gives null and no change; otherwise only that row changes, each column takes the patch value or keeps the old one, and the result is what a read returns |
| Db.UpdateTitleOnly | server/db.js:212-244 | a title-only patch changes only the title when the structured fields are not falsy |
| Db.DeleteGame | server/db.js:247-250 | the id is gone afterwards, every other row and the other tables are unchanged, and the call always succeeds |
| Db.DeleteGameIdempotent | server/db.js:247-250 | deleting twice is deleting once |
| Db.DeletedIdNotReused | server/db.js:78 | a game created after a delete gets an id above the deleted one |
| Db.CompanyRowOf | server/db.js:257-287 | a company row exists exactly when it has a name |
| Db.MergedCompanyRow | server/db.js:257-287 | every text field takes the payload's value when it is present and keeps the stored one otherwise; achievements and team read back as that list, `[]` when both are missing |
| Db.UpdateCompany | server/db.js:257-287 | without a company row, null and no change; otherwise each of the nine fields takes the patch or the old value, lists default to `[]`, the id stays 1, a read returns the result, and games and users are untouched |
| Db.GetUserByEmail | server/db.js:289-291 | a user exactly when some account has that email, and then that account |
| Db.GetUserByEmailUnique | server/db.js:289-291 | looking up an account's own email finds that account, because emails are unique |
| Db.GetUserById | server/db.js:293-295 | a user exactly when the id is present, carrying that id and the stored email, hash, name and role |
| Db.CreateUser | server/db.js:297-306 | fails with no change exactly on a missing email or hash, a taken email or an exhausted sequence; otherwise a fresh id, name `""` and role `user` by default, and the new account is found by its email |
| Db.SeedGames | server/db.js:139-159 | seeding keeps every existing row and other table; on success the k-th default game sits under the k-th new id |
| Db.InitCompany | server/db.js:114-137 | an existing company is kept; otherwise the supplied or default company is inserted exactly when it has a name; games, users and both id sequences are untouched |
| Db.InitializeDatabase | server/db.js:76-161 | start-up keeps users and the user id sequence, keeps existing games and, when it seeds nothing, the game id sequence, keeps an existing company, fails with nothing changed when the default company has no name, seeds games only into an empty table, where on success the defaults are stored in order under the next ids, and always leaves a company on success |
| Db.SeededCount | server/db.js:139-160 | seeding an empty table stores exactly as many games as were supplied |
| Server.EnvOr | server/index.js:37 | an environment value is used when it is set and non-empty; otherwise the fallback |
| Server.Public | server/index.js:288 | the public user carries id, email, name and role and never the password hash |
| Server.SignToken | server/index.js:35-39 | the token carries id, email and role, expires in 7 days and uses the development secret when none is configured |
| Server.BearerToken | server/index.js:42-43 | a token exactly when the header is `Bearer ` followed by a non-empty rest, and then that rest |
| Server.Authenticate | server/index.js:41-53 | 401 `Yetkisiz` without a bearer token, 401 `Geçersiz token` when verification fails, and otherwise exactly the verified claims |
| Server.AdminGate | server/index.js:55-60 | passes exactly for an authenticated admin; otherwise 401 from authentication or 403 for a non-admin |
| Server.SignedTokenAuthenticates | server/index.js:35-53 | a token the server signed authenticates as the user it was signed for |
| Server.ListGames | server/index.js:232-239 | 200 with every stored game once, in ascending id order, each element the serialized row stored under its id |
| Server.GetGame | server/index.js:241-252 | 200 with the game exactly when `parseInt` of the path finds one; otherwise 404 `Oyun bulunamadı` |
| Server.GetGameOfIdText | server/index.js:241-252 | requesting a stored game by its decimal id returns that game |
| Server.GetCompanyRoute | server/index.js:254-261 | 200 with the company exactly when one is stored, or null; the company has id 1, every text column as stored and both lists decoded with `[]` as fallback |
| Server.IsFeatured | server/index.js:266 | the `rating >= 4.5` test, with 4.5 stars written as 450 hundredths; its use is stated by Server.FeaturedRoute |
| Server.FeaturedRoute | server/index.js:263-271 | 200 with exactly the games rated 4.5 or more, in ascending id order |
| Server.HealthRoute | server/index.js:274-276 | always 200 with status `OK` |
| Server.Register | server/index.js:279-292 | 400 on a missing email or password, 409 on a taken email, otherwise 201 with a token and a `user`-role account storing the hash under a fresh id, every other account kept; with both credentials and a free email the answer is 201 exactly when user ids are not exhausted, and otherwise the 400 registration-error message; a store change only on 201 |
| Server.Login | server/index.js:294-306 | 200 exactly when the account exists and the password matches its hash, with the public user and a token for them; an unknown email gives 401 |
| Server.LoginDoesNotRevealAccounts | server/index.js:294-306 | an unknown email and a wrong password get the same response |
| Server.RegisterThenLogin | server/index.js:279-306 | after a successful registration the same credentials log in as the same user |
| Server.Me | server/index.js:308-316 | the authentication error, or 404 for a vanished account, or 200 with the caller's public profile |
| Server.ParseIntOf | server/index.js:323 | a missing or `null` game id parses to NaN; a string id parses as `parseInt` of that text |
| Server.JsString | server/index.js:323 | a number converts to its decimal text and a string to itself before `parseInt` |
| Server.ParseIntOfGameId | server/index.js:323 | a game id sent as a number or as its decimal text parses to that id |
| Server.ParseIntOfMissing | server/index.js:323 | a missing game id parses to NaN |
| Server.NumberOf | server/index.js:339 | `Number` of a number is itself and of null is 0 |
| Server.Quantity | server/index.js:339 | the quantity is at least 1: the number when it is at least 1, otherwise 1 |
| Server.Prefix | server/index.js:335 | `substring(0, n)` is a prefix of length at most n, the whole text when shorter |
| Server.CheckoutRequestFor | server/index.js:326-344 | one card line item in `try` with the game's title and price, the requested quantity, a description that is the game's own when it fits and otherwise its first 200 characters, and configured or default return URLs |
| Server.Checkout | server/index.js:319-349 | 500 without a Stripe key, 404 for an unknown game, 400 when the session fails, otherwise 200 with the session id and URL |
| Server.AdminCreateGame | server/index.js:351-358 | the gate's error with no change, 400 with no change when the insert fails, otherwise 201 with the created game |
| Server.AdminUpdateGame | server/index.js:360-371 | the gate's error, 404 for an unknown id, otherwise 200 with the merged game; the store changes only in the last case |
| Server.AdminDeleteGame | server/index.js:373-381 | the gate's error with no change, otherwise 200 and the game is gone |
| Server.AdminUpdateCompany | server/index.js:383-390 | the gate's error with no change, otherwise 200 with the merged company |
| Server.HandleAdmin | server/index.js:351-390 | every admin route keeps the store valid |
| Server.AdminRoutesNeedAdmin | server/index.js:351-390 | without a valid token every admin route answers 401, and for a non-admin 403, leaving the store unchanged |
| Server.SeedAdmin | server/index.js:396-403 | nothing happens without both variables or when the email exists; otherwise an `admin` account named `Admin` with that email and the given hash is created under a fresh id; every existing account is kept; it fails exactly when both variables are set, the email is free and user ids are exhausted |
| Server.SeedAdminOnce | server/index.js:396-403 | running the admin seed again changes nothing |
| Server.Startup | server/index.js:392-412 | a successful start-up leaves a valid store with a company row, keeps every account, and holds the admin email when both variables are set; a failure of `initializeDatabase` stops start-up with that error, and start-up fails exactly then or when the admin insert finds user ids exhausted |
| Lists.Filter | client/src/pages/Games.js:284-294 | the result keeps exactly the elements that pass and is no longer than the input |
| Lists.FilterCounts | client/src/pages/Games.js:284-294 | each passing element keeps its multiplicity and every other element is dropped |
| Lists.FilterKeepsOrder | server/index.js:266 | an order that holds along the input still holds along the filtered list |
| Lists.Sort | client/src/pages/Games.js:297-310 | the sorted list is a permutation of the input |
| Lists.SortSorted | client/src/pages/Games.js:297-310 | for a consistent comparator, every earlier element compares at most the later one |
| Lists.SortStable | client/src/pages/Games.js:297-310 | elements the comparator ties keep their input order, as `Array.prototype.sort` guarantees |
| Lists.SortUnchanged | client/src/pages/Games.js:307-308 | a comparator that ties everything leaves the list as it was |
| Lists.Distinct | client/src/pages/Games.js:315 | `[...new Set(xs)]` has the same elements as `xs`, each once |
| Lists.DistinctFirstOccurrenceOrder | client/src/pages/Games.js:315 | the distinct elements appear in the order of their first occurrence |
| Catalogue.Matches | client/src/pages/Games.js:284-294 | a game matches a search exactly when the lower-cased term occurs in the lower-cased title or the lower-cased description |
| Catalogue.Comparator | client/src/pages/Games.js:297-310 | by rating, a positive result exactly when the second game rates higher and zero exactly on equal ratings; by price, positive exactly when the first costs more and zero on equal prices; by title, the collation's answer; by date, zero when either date is NaN and otherwise non-positive exactly when the second date is not later; any other key, zero |
| Catalogue.Filtered | client/src/pages/Games.js:281-294 | exactly the games that match the lower-cased search in title or description and, when a genre is chosen, have that genre |
| Catalogue.FilteredKeepsOrder | client/src/pages/Games.js:281-294 | filtering the server's ascending list keeps ids ascending |
| Catalogue.DateDiff | client/src/pages/Games.js:306 | a date that does not parse makes the difference NaN, which sorts as a tie; otherwise the difference is at most 0 exactly when the first date is not after the second |
| Catalogue.Shown | client/src/pages/Games.js:281-312 | the displayed list is a permutation of the filtered games |
| Catalogue.ShownAll | client/src/pages/Games.js:281-312 | with no search and no genre every game is shown |
| Catalogue.InitialShown | client/src/pages/Games.js:260-262 | on first render, with no search, no genre and the rating sort, every game is shown, highest rated first |
| Catalogue.ShownByRating | client/src/pages/Games.js:299-300 | sorting by rating shows ratings non-increasing |
| Catalogue.ShownByPrice | client/src/pages/Games.js:301-302 | sorting by price shows prices non-decreasing |
| Catalogue.ShownByTitle | client/src/pages/Games.js:303-304 | for a consistent collation, sorting by title shows titles in collation order |
| Catalogue.ShownByReleaseDate | client/src/pages/Games.js:305-306 | when every date parses, sorting by date shows newest first |
| Catalogue.ShownUnsorted | client/src/pages/Games.js:307-308 | an unknown sort key leaves the filtered order as it was |
| Catalogue.ShownRatingTies | client/src/pages/Games.js:299-300 | games with equal rating appear in filtered order |
| Catalogue.ShownPriceTies | client/src/pages/Games.js:301-302 | games with equal price appear in filtered order |
| Catalogue.GenreOf | client/src/pages/Games.js:315 | one genre per game, in order |
| Catalogue.Genres | client/src/pages/Games.js:315 | the genre options are exactly the genres of the games, each once |
| Catalogue.GenresInFirstAppearanceOrder | client/src/pages/Games.js:315 | genre options follow the order in which genres first appear in the games |
| Catalogue.EffectAsWritten | client/src/pages/Games.js:280-313 | the effect as written: with a filter the games state is untouched; without one the state itself is sorted in place |
| Catalogue.EffectAsWrittenReordersGames | client/src/pages/Games.js:281-310 | sorting by price with no filter reorders the games state itself |
| Catalogue.EffectAsWrittenRemembersEarlierSort | client/src/pages/Games.js:281-310 | after that, sorting by rating shows tied games in the earlier price order, not in server order |
| Catalogue.EffectAsWrittenSwapsGenres | client/src/pages/Games.js:315 | the reorder also changes the order of the genre options |
| Catalogue.Effect | client/src/pages/Games.js:280-313 | the corrected effect never changes the games state and shows a permutation of the filtered games |
| Catalogue.EffectForgetsEarlierSort | client/src/pages/Games.js:280-313 | under the corrected effect an earlier view has no influence, and rating ties keep server order |
| AdminForm.Encode | client/src/pages/Admin.js:576 | `join(', ')`: the empty list shows as empty text, one item as itself, and every item occurs in the text |
| AdminForm.Clean | client/src/pages/Admin.js:579 | after trimming and dropping empty pieces every item is non-empty and trimmed, and a text is an item exactly when it is the non-empty trim of some piece |
| AdminForm.CleanKeepsOut | client/src/pages/Admin.js:579 | cleaning comma-free pieces leaves comma-free items |
| AdminForm.Decode | client/src/pages/Admin.js:579 | the decoded list holds non-empty, trimmed, comma-free items |
| AdminForm.DecodeEncode | client/src/pages/Admin.js:576-579 | decoding the `join(', ')` of such a list gives the list back |
| AdminForm.DecodePaddedEncode | client/src/pages/Admin.js:576-579 | the round trip also holds after a leading space |
| AdminForm.DecodeStable | client/src/pages/Admin.js:576-579 | re-encoding and decoding a decoded list changes nothing |
| AdminForm.EncodeEnd | client/src/pages/Admin.js:576 | the encoding is empty exactly for the empty list and never ends in a space or comma |
| AdminForm.TypeAsWritten | client/src/pages/Admin.js:576-591 | a keystroke stores the decoded list and the field then shows its re-encoding |
| AdminForm.TypeAsWrittenDropsTrailingKey | client/src/pages/Admin.js:576-591 | a typed comma or space at the end never shows in the field |
| AdminForm.TypeAsWrittenOpenSpace | client/src/pages/Admin.js:576-591 | typing `Open ` shows `Open` |
| AdminForm.Type | client/src/pages/Admin.js:576-591 | the corrected field shows what was typed and stores its decoding |
| AdminForm.TypeKeepsKeys | client/src/pages/Admin.js:576-591 | the corrected field keeps every keystroke and still stores an encoded list unchanged |
| AdminForm.TypeKeysKeepsAll | client/src/pages/Admin.js:576-591 | with the corrected field, any text typed key by key ends up in the box exactly as typed |
| AdminForm.StringsRoundTrip | client/src/pages/Admin.js:382-383 | a string list survives conversion to a JSON array and back, and so does a JSON array of strings |
| AdminForm.Payload | client/src/pages/Admin.js:309-329 | the payload copies every text field and both lists, converts price and rating with `parseFloat`, sends no id and always sends the fixed system requirements |
| AdminForm.SaveRequest | client/src/pages/Admin.js:331-335 | a new game is a create request and an edited game is an update of that game's id |
| AdminForm.EditForm | client/src/pages/Admin.js:371-387 | the form holds the game's lists and system requirements unchanged |
| AdminForm.EditThenSaveKeepsGame | client/src/pages/Admin.js:306-387 | editing a game and saving it unchanged sends back every field of the game, except that system requirements are replaced by the fixed ones |
| AdminForm.Save | client/src/pages/Admin.js:306-354 | a success reloads games and company, resets the form, closes it and notices an add or an update as the page was editing; a failure changes only the notice |
| AdminForm.SaveFailureKeepsStore | client/src/pages/Admin.js:349-352 | a rejected save leaves the store unchanged |
| AdminForm.SaveAsAdmin | client/src/pages/Admin.js:306-354 | for an admin, saving a new game is the store's create, and saving an existing game is its update with an updated notice |
| AdminForm.SaveNeedsAdmin | client/src/pages/Admin.js:306-354 | without admin rights a save only shows the error notice |

## Left out

- Floating point is not modelled. Prices and ratings are exact hundredths, and `parseFloat`, `Number` of text and `Math.round` are function parameters. Integer-to-text (`String(n)` and `JSON.stringify` of a number) is modelled as plain decimal text.
- The internals of bcrypt, JWT signing and verification, and Stripe are outside calls. They appear as parameters: a hash string, a `verify` function, a `compare` function and a `createSession` function.
- SQLite I/O, the callback wrappers, read errors and the `500` handlers for failed reads are not modelled. Reads are total functions of the store.
- Concurrency between requests is not modelled, and neither are the races between the admin page's requests.
- Db.UpdateGame: a body field sent as explicit JSON `null` is treated like a missing field. In SQLite a `null` for a NOT NULL column would fail the update instead.
- Db.UpdateCompany: a payload field sent as explicit JSON `null` is treated like a missing field and keeps the old value. In SQLite a `null` name would fail the NOT NULL constraint, and a `null` for another text field would store `''`.
- AdminForm.Payload: a price or rating that `parseFloat` turns into NaN is sent as a missing field, though JSON would carry `null`. See Db.UpdateGame above.
- Server.Register: body fields that are present but not strings, such as numbers or objects, are not modelled. Every credential is an optional string.
- Text.ParseIntOfIntText: holds for unbounded integers. JavaScript's `parseInt` loses precision above 2^53, so the model is exact only in that range.
- Json.ParseOfStringify: the model treats characters as Unicode scalar values. Lone UTF-16 surrogates and `\u` surrogate escapes are not modelled, nor are fractions and exponents. An object is a sequence of members that keeps the written order and any duplicate keys. `JSON.parse` keeps only the last of duplicate keys and lists integer-like keys first, so the round trip matches JavaScript only for objects whose keys are distinct and not integer-like. Those are the only objects the store writes.
- Server.JsString: writes every integer in plain decimal. JavaScript's `String` switches to exponent text such as `1e+21` from 10^21 upward, so the model is exact only below that magnitude.
- Server.ParseIntOfGameId: holds for every integer id in the model. In JavaScript a numeric id of 10^21 or more becomes exponent text, and `parseInt` then reads only its leading digits (1 from `1e+21`). The server therefore looks up a different id for such a body, which the model does not reproduce.
- Server.Prefix: counts Unicode scalar values, where `substring` counts UTF-16 code units. A description with characters outside the Basic Multilingual Plane among its first 200 is cut shorter by the server, possibly inside a surrogate pair.
- Catalogue.DateDiff: when a release date does not parse, the comparison gives NaN, which makes the comparator inconsistent. `Array.prototype.sort` then leaves the order up to the engine, and the model fixes one allowed order, the one its insertion sort produces.
- Server.Quantity: an infinite or fractional quantity is passed on as a real number. Stripe's rejection of such values is left to `createSession`.
- AdminForm.EditForm: it returns no form when a stored list is not a JSON array of strings, where the page would put whatever value it got into the form.
- Rendering, navigation, `AuthContext`, the delayed clearing of notices by `setTimeout`, and React's skipping of re-renders when the same array is set again are not modelled.
- The admin page's delete button (`handleDeleteGame`) and the company form (`handleCompanySubmit`) are not modelled. The server routes they call are modelled as `Server.AdminDeleteGame` and `Server.AdminUpdateCompany`.
- The catalogue page's initial fetch and loading state are not modelled. The model starts from the list the server returned.

## Findings

| source | as written | input that shows it | evidently intended | confidence | as-written member | corrected member |
|---|---|---|---|---|---|---|
| client/src/pages/Games.js:281-312 | with no search and no genre, `filtered` is the `games` state array itself, and `sort` reorders that state in place | games TieA (id 1, price 20.00, rating 4.00, RPG) and TieB (id 2, price 10.00, rating 4.00, Action); sort by price, then by rating | the sort works on a copy, so the server's id order and the genre option order never change and rating ties show in id order | not executed | Catalogue.EffectAsWritten (Catalogue.EffectAsWrittenReordersGames, Catalogue.EffectAsWrittenRemembersEarlierSort, Catalogue.EffectAsWrittenSwapsGenres) | Catalogue.Effect (Catalogue.EffectForgetsEarlierSort) |
| client/src/pages/Admin.js:576-591 | the screenshots and features text areas show `join(', ')` of the list that each keystroke's `split`/`trim`/`filter` produced | typing `Open ` (or a trailing comma) into the features field | the field keeps the text as typed and only the stored list is cleaned, so a space or comma can be typed between items | not executed | AdminForm.TypeAsWritten (AdminForm.TypeAsWrittenDropsTrailingKey, AdminForm.TypeAsWrittenOpenSpace) | AdminForm.Type (AdminForm.TypeKeepsKeys, AdminForm.TypeKeysKeepsAll) |

=== FILE: admin_form.dfy ===
/** The admin page's game form: the comma-separated list fields, the payload
    a save sends, the request it goes out as, and the page after the answer. */
module AdminForm {
  import opened Wrappers
  import opened Text
  import opened Json
  import Db
  import Server

  // ---------------------------------------------------------------------------
  // The list fields: shown as `xs.join(', ')`, read back with
  // `s.split(',').map(x => x.trim()).filter(x => x)`

  /** The list as the field shows it: every item, in one text. */
  function Encode(xs: seq<string>): (r: string)
    ensures |xs| == 0 ==> r == ""
    ensures |xs| == 1 ==> r == xs[0]
    ensures forall i :: 0 <= i < |xs| ==> Occurs(r, xs[i])
  {
    JoinHasItems(xs, ", ");
    Join(xs, ", ")
  }

  /** The pieces trimmed, the empty ones dropped. */
  function Clean(pieces: seq<string>): (r: seq<string>)
    ensures |r| <= |pieces|
    ensures forall i :: 0 <= i < |r| ==> r[i] != "" && Trimmed(r[i])
    ensures TrimsOf(r, pieces)
  {
    if |pieces| == 0 then []
    else
      var t := Trim(pieces[0]);
      var rest := Clean(pieces[1..]);
      CleanStep(pieces, rest);
      if t == "" then rest
      else
        var r := [t] + rest;
        assert forall i :: 0 < i < |r| ==> r[i] == rest[i - 1];
        r
  }

  /** Some piece trims to `x`. */
  ghost predicate SomeTrimsTo(pieces: seq<string>, x: string) {
    SomeMapsTo(pieces, Trim, x)
  }

  /** Some piece is mapped to `x` by `f`. */
  ghost predicate SomeMapsTo(pieces: seq<string>, f: string -> string, x: string) {
    exists p :: p in pieces && f(p) == x
  }

  /** The items of `r` are the non-empty trims of the pieces. */
  ghost predicate TrimsOf(r: seq<string>, pieces: seq<string>) {
    forall x :: x in r <==> x != "" && SomeTrimsTo(pieces, x)
  }

  lemma CleanStep(pieces: seq<string>, rest: seq<string>)
    requires |pieces| > 0 && TrimsOf(rest, pieces[1..])
    ensures Trim(pieces[0]) == "" ==> TrimsOf(rest, pieces)
    ensures Trim(pieces[0]) != "" ==> TrimsOf([Trim(pieces[0])] + rest, pieces)
  {
    var t := Trim(pieces[0]);
    var r := if t == "" then rest else [t] + rest;
    forall x
      ensures x in r <==> x != "" && SomeTrimsTo(pieces, x)
    {
      TrimOfSome(pieces, x);
      assert x in r <==> (t != "" && x == t) || x in rest;
    }
  }

  /** Some piece trims to `x` exactly when the first does or a later one does. */
  lemma TrimOfSome(pieces: seq<string>, x: string)
    requires |pieces| > 0
    ensures SomeTrimsTo(pieces, x) <==> Trim(pieces[0]) == x || SomeTrimsTo(pieces[1..], x)
  {
    MapOfSome(pieces, Trim, x);
  }

  lemma MapOfSome(pieces: seq<string>, f: string -> string, x: string)
    requires |pieces| > 0
    ensures SomeMapsTo(pieces, f, x) <==> f(pieces[0]) == x || SomeMapsTo(pieces[1..], f, x)
  {
    if SomeMapsTo(pieces, f, x) {
      var p :| p in pieces && f(p) == x;
      if p != pieces[0] {
        assert p in pieces[1..];
      }
    }
    if SomeMapsTo(pieces[1..], f, x) {
      var p :| p in pieces[1..] && f(p) == x;
      assert p in pieces;
    }
    if f(pieces[0]) == x {
      assert pieces[0] in pieces;
    }
  }

  /** Trimming brings in no comma. */
  lemma {:induction false} CleanKeepsOut(pieces: seq<string>)
    requires forall x :: x in pieces ==> ',' !in x
    ensures forall x :: x in Clean(pieces) ==> ',' !in x
  {
    if |pieces| > 0 {
      TrimKeepsOut(pieces[0], ',');
      assert forall x :: x in pieces[1..] ==> x in pieces;
      CleanKeepsOut(pieces[1..]);
    }
  }

  /** A list the field can hold: items neither empty, nor padded with white
      space, nor containing a comma. */
  predicate Good(xs: seq<string>) {
    forall i :: 0 <= i < |xs| ==> xs[i] != "" && Trimmed(xs[i]) && ',' !in xs[i]
  }

  function Decode(s: string): (r: seq<string>)
    ensures Good(r)
  {
    CleanKeepsOut(Split(s, ','));
    Clean(Split(s, ','))
  }

  /** At most one space in front of trimmed text trims away. */
  lemma TrimPadded(p: string, x: string)
    requires p == "" || p == " "
    requires Trimmed(x)
    ensures Trim(p + x) == x
  {
    if p == " " {
      assert (p + x)[1..] == x;
      assert TrimStart(p + x) == TrimStart(x);
    }
    assert TrimStart(x) == x;
    assert TrimEnd(x) == x;
  }

  lemma {:induction false} DecodePaddedEncode(p: string, xs: seq<string>)
    requires p == "" || p == " "
    requires Good(xs)
    ensures Clean(Split(p + Encode(xs), ',')) == xs
    decreases |xs|
  {
    if |xs| == 0 {
      DecodePadding(p);
    } else if |xs| == 1 {
      DecodePaddedItem(p, xs[0]);
    } else {
      assert xs == [xs[0]] + xs[1..];
      DecodePaddedEncode(" ", xs[1..]);
      DecodePaddedStep(p, xs[0], xs[1..]);
    }
  }

  /** One item in front of a list that reads back after its `", "`. */
  lemma DecodePaddedStep(p: string, x: string, rest: seq<string>)
    requires p == "" || p == " "
    requires x != "" && Trimmed(x) && ',' !in x && |rest| > 0
    requires Clean(Split(" " + Encode(rest), ',')) == rest
    ensures Clean(Split(p + Encode([x] + rest), ',')) == [x] + rest
  {
    var tail := " " + Encode(rest);
    EncodeLayout(p, x, rest);
    SplitAtSeparator(p + x, ',', tail);
    TrimPadded(p, x);
    CleanCons(p + x, Split(tail, ','));
  }

  lemma EncodeLayout(p: string, x: string, rest: seq<string>)
    requires |rest| > 0
    ensures p + Encode([x] + rest) == (p + x) + [','] + (" " + Encode(rest))
  {
    var xs := [x] + rest;
    assert xs[0] == x && xs[1..] == rest;
    assert Encode(xs) == x + ", " + Encode(rest);
  }

  lemma CleanCons(piece: string, pieces: seq<string>)
    ensures Clean([piece] + pieces) == (if Trim(piece) == "" then [] else [Trim(piece)]) + Clean(pieces)
  {
    assert ([piece] + pieces)[1..] == pieces;
  }

  lemma DecodePadding(p: string)
    requires p == "" || p == " "
    ensures Clean(Split(p + Encode([]), ',')) == []
  {
    assert p + Encode([]) == p;
    SplitWithoutSeparator(p, ',');
    TrimPadded(p, "");
    assert p + "" == p;
    CleanCons(p, []);
  }

  lemma DecodePaddedItem(p: string, x: string)
    requires p == "" || p == " "
    requires x != "" && Trimmed(x) && ',' !in x
    ensures Clean(Split(p + Encode([x]), ',')) == [x]
  {
    assert p + Encode([x]) == p + x;
    SplitWithoutSeparator(p + x, ',');
    TrimPadded(p, x);
    CleanCons(p + x, []);
  }

  /** Reading back a shown list gives the list. */
  lemma DecodeEncode(xs: seq<string>)
    requires Good(xs)
    ensures Decode(Encode(xs)) == xs
  {
    DecodePaddedEncode("", xs);
    assert "" + Encode(xs) == Encode(xs);
  }

  /** Reading back what a read-back list shows changes nothing. */
  lemma DecodeStable(s: string)
    ensures Decode(Encode(Decode(s))) == Decode(s)
  {
    DecodeEncode(Decode(s));
  }

  /** A shown list never ends in white space or a comma. */
  lemma {:induction false} EncodeEnd(xs: seq<string>)
    requires Good(xs)
    ensures |xs| == 0 <==> Encode(xs) == ""
    ensures |xs| > 0 ==> !IsJsSpace(Encode(xs)[|Encode(xs)| - 1]) && Encode(xs)[|Encode(xs)| - 1] != ','
  {
    if |xs| > 1 {
      var rest := xs[1..];
      EncodeEnd(rest);
      var e := Encode(xs);
      assert e == xs[0] + ", " + Encode(rest);
      assert e[|e| - 1] == Encode(rest)[|Encode(rest)| - 1];
    } else if |xs| == 1 {
      assert xs[0][|xs[0]| - 1] in xs[0];
    }
  }

  // ---------------------------------------------------------------------------
  // Typing into a list field

  /** One keystroke in a list field as the page handles it: the field's
      value becomes the read-back list, shown again. Returns what the box
      shows and the list the form holds. */
  function TypeAsWritten(typed: string): (r: (string, seq<string>))
    ensures Good(r.1)
    ensures Decode(r.0) == r.1
  {
    DecodeEncode(Decode(typed));
    (Encode(Decode(typed)), Decode(typed))
  }

  /** A separator or a space just typed at the end disappears from the box,
      so the next keystroke lands right after the previous item: an item
      with a space inside, or a second item, cannot be typed key by key. */
  lemma TypeAsWrittenDropsTrailingKey(before: string, c: char)
    requires c == ',' || IsJsSpace(c)
    ensures TypeAsWritten(before + [c]).0 != before + [c]
  {
    var s := before + [c];
    EncodeEnd(Decode(s));
    assert s[|s| - 1] == c;
  }

  /** The field with the defect corrected: the box keeps the typed text and
      the form holds its read-back list. */
  function Type(typed: string): (r: (string, seq<string>))
    ensures Good(r.1)
    ensures Decode(r.0) == r.1
  {
    (typed, Decode(typed))
  }

  /** Every keystroke stays in the box, and a list shown in the box reads
      back unchanged. */
  lemma TypeKeepsKeys(before: string, c: char, xs: seq<string>)
    requires Good(xs)
    ensures Type(before + [c]).0 == before + [c]
    ensures Type(Encode(xs)).1 == xs
  {
    DecodeEncode(xs);
  }

  /** The box after the keys are typed one at a time into it. */
  function TypeKeys(box: string, keys: string): string
    decreases |keys|
  {
    if |keys| == 0 then box else TypeKeys(Type(box + [keys[0]]).0, keys[1..])
  }

  /** Typing key by key leaves exactly the keys in the box, whatever they are. */
  lemma {:induction false} TypeKeysKeepsAll(box: string, keys: string)
    ensures TypeKeys(box, keys) == box + keys
    decreases |keys|
  {
    if |keys| > 0 {
      var next := box + [keys[0]];
      assert Type(next).0 == next;
      TypeKeysKeepsAll(next, keys[1..]);
      KeyThenRest(box, keys);
    }
  }

  lemma KeyThenRest(box: string, keys: string)
    requires |keys| > 0
    ensures box + [keys[0]] + keys[1..] == box + keys
  {
    assert keys == [keys[0]] + keys[1..];
    AppendAssoc(box, [keys[0]], keys[1..]);
  }

  lemma AppendAssoc(a: string, b: string, c: string)
    ensures a + b + c == a + (b + c)
  {
  }

  /** One space after trimmed text trims away. */
  lemma TrimSpaceAfter(x: string)
    requires Trimmed(x)
    ensures Trim(x + " ") == x
  {
    var s := x + " ";
    if |x| == 0 {
      TrimPadded(" ", "");
      assert " " + "" == s;
    } else {
      assert s[..|x|] == x;
      assert s[0] == x[0];
      assert TrimStart(s) == s;
      assert TrimEnd(x) == x;
    }
  }

  /** Typing "Open" then a space shows "Open" again. */
  lemma TypeAsWrittenOpenSpace()
    ensures TypeAsWritten("Open ").0 == "Open"
  {
    var open := "Open";
    assert open + " " == "Open ";
    assert ',' !in open + " ";
    SplitWithoutSeparator(open + " ", ',');
    TrimSpaceAfter(open);
    CleanCons(open + " ", []);
    assert Decode(open + " ") == [open];
  }

  // ---------------------------------------------------------------------------
  // The form

  datatype GameForm = GameForm(
    title: string, genre: string, description: string, releaseDate: string,
    price: string, rating: string, image: string, trailer: string,
    screenshots: seq<string>, features: seq<string>, systemRequirements: Json)

  function Blank(keys: seq<string>): (r: Json)
    ensures r.JObj? && |r.members| == |keys|
  {
    JObj(seq(|keys|, i requires 0 <= i < |keys| => Member(keys[i], JStr(""))))
  }

  const RequirementKeys := ["os", "processor", "memory", "graphics", "storage"]

  /** The form when the page opens and after each save: every text empty,
      three empty screenshot slots and four empty feature slots. */
  const EmptyForm := GameForm(
    "", "", "", "", "", "", "", "",
    ["", "", ""], ["", "", "", ""],
    JObj([Member("minimum", Blank(RequirementKeys)), Member("recommended", Blank(RequirementKeys))]))

  function Spec(os: string, processor: string, memory: string, graphics: string, storage: string): Json {
    JObj([Member("os", JStr(os)), Member("processor", JStr(processor)), Member("memory", JStr(memory)),
          Member("graphics", JStr(graphics)), Member("storage", JStr(storage))])
  }

  /** The system requirements every save sends, whatever the form holds. */
  const FixedRequirements := JObj([
    Member("minimum", Spec("Windows 10", "Intel Core i5-2500K", "8 GB RAM", "NVIDIA GTX 970", "50 GB")),
    Member("recommended", Spec("Windows 10", "Intel Core i7-8700K", "16 GB RAM", "NVIDIA RTX 3070", "50 GB SSD"))])

  function StringArray(xs: seq<string>): (r: Json)
    ensures r.JArr? && |r.items| == |xs|
  {
    JArr(seq(|xs|, i requires 0 <= i < |xs| => JStr(xs[i])))
  }

  /** The strings of an array of strings; `None` for any other value. */
  function StringsOf(j: Json): (r: Option<seq<string>>)
    ensures r.Some? <==> j.JArr? && forall i :: 0 <= i < |j.items| ==> j.items[i].JStr?
    ensures r.Some? ==> |r.value| == |j.items| && forall i :: 0 <= i < |j.items| ==> j.items[i] == JStr(r.value[i])
  {
    if j.JArr? && forall i :: 0 <= i < |j.items| ==> j.items[i].JStr? then
      Some(seq(|j.items|, i requires 0 <= i < |j.items| => j.items[i].s))
    else None
  }

  lemma StringsRoundTrip(xs: seq<string>, j: Json)
    ensures StringsOf(StringArray(xs)) == Some(xs)
    ensures StringsOf(j).Some? ==> StringArray(StringsOf(j).value) == j
  {
    var a := StringArray(xs);
    assert forall i :: 0 <= i < |a.items| ==> a.items[i].JStr?;
    assert StringsOf(a).value == xs;
    if StringsOf(j).Some? {
      assert StringArray(StringsOf(j).value).items == j.items;
    }
  }

  /** `{ ...gameForm, price: parseFloat(...), rating: parseFloat(...),
      systemRequirements: ... }`; `number` is `parseFloat` in hundredths,
      `None` for NaN. The form has no id, so none is sent. */
  function Payload(form: GameForm, number: string -> Option<int>): (r: Db.GameFields)
    ensures r.id.None?
    ensures && r.title == Some(form.title) && r.genre == Some(form.genre)
            && r.description == Some(form.description) && r.releaseDate == Some(form.releaseDate)
            && r.image == Some(form.image) && r.trailer == Some(form.trailer)
    ensures r.price == number(form.price) && r.rating == number(form.rating)
    ensures r.screenshots.Some? && StringsOf(r.screenshots.value) == Some(form.screenshots)
    ensures r.features.Some? && StringsOf(r.features.value) == Some(form.features)
    ensures r.systemRequirements == Some(FixedRequirements)
  {
    StringsRoundTrip(form.screenshots, JNull);
    StringsRoundTrip(form.features, JNull);
    Db.GameFields(
      None, Some(form.title), Some(form.genre), Some(form.description), Some(form.releaseDate),
      number(form.price), number(form.rating), Some(form.image), Some(form.trailer),
      Some(StringArray(form.screenshots)), Some(StringArray(form.features)), Some(FixedRequirements))
  }

  /** A save while editing is a PUT to `/api/admin/games/<id>`, otherwise a
      POST to `/api/admin/games`. */
  function SaveRequest(form: GameForm, editing: Option<Db.Game>, number: string -> Option<int>): (r: Server.AdminRequest)
    ensures editing.None? <==> r.CreateGameRequest?
    ensures editing.Some? ==> r.UpdateGameRequest? && ParseInt(r.idParam) == Some(editing.value.id)
  {
    if editing.Some? then
      ParseIntOfIntText(editing.value.id, "");
      assert IntText(editing.value.id) + "" == IntText(editing.value.id);
      Server.UpdateGameRequest(IntText(editing.value.id), Payload(form, number))
    else Server.CreateGameRequest(Payload(form, number))
  }

  /** `handleEditGame`: the form filled from a listed game. `text` is the
      number's `toString` (in hundredths); the list fields take the game's
      arrays, `None` when one is not an array of strings. */
  function EditForm(game: Db.Game, text: int -> string): (r: Option<GameForm>)
    ensures r.Some? <==> StringsOf(game.screenshots).Some? && StringsOf(game.features).Some?
    ensures r.Some? ==>
      && StringArray(r.value.screenshots) == game.screenshots
      && StringArray(r.value.features) == game.features
      && r.value.systemRequirements == game.systemRequirements
  {
    StringsRoundTrip([], game.screenshots);
    StringsRoundTrip([], game.features);
    match (StringsOf(game.screenshots), StringsOf(game.features))
    case (Some(shots), Some(feats)) =>
      Some(GameForm(
        game.title, game.genre, game.description, game.releaseDate,
        text(game.price), text(game.rating), game.image, game.trailer,
        shots, feats, game.systemRequirements))
    case _ => None
  }

  /** Opening a game for editing and saving it untouched sends back every
      field the game had, except the system requirements, which are always
      replaced by the fixed ones. */
  lemma EditThenSaveKeepsGame(game: Db.Game, text: int -> string, number: string -> Option<int>)
    requires forall n :: number(text(n)) == Some(n)
    requires EditForm(game, text).Some?
    ensures
      var p := Payload(EditForm(game, text).value, number);
      && p.title == Some(game.title) && p.genre == Some(game.genre)
      && p.description == Some(game.description) && p.releaseDate == Some(game.releaseDate)
      && p.price == Some(game.price) && p.rating == Some(game.rating)
      && p.image == Some(game.image) && p.trailer == Some(game.trailer)
      && p.screenshots == Some(game.screenshots) && p.features == Some(game.features)
      && p.systemRequirements == Some(FixedRequirements)
  {
  }

  // ---------------------------------------------------------------------------
  // The page around a save

  datatype Notice = Notice(kind: string, text: string)

  const Added := Notice("success", "Oyun ba\U{15f}ar\U{131}yla eklendi!")
  const Updated := Notice("success", "Oyun ba\U{15f}ar\U{131}yla g\U{fc}ncellendi!")
  const SaveFailed := Notice("error", "Oyun kaydedilirken hata olu\U{15f}tu!")

  datatype Page = Page(
    games: seq<Db.Game>, company: Option<Db.Company>,
    form: GameForm, editing: Option<Db.Game>, showForm: bool, notice: Notice)

  /** Whether axios resolves: a status in the 2xx range. */
  predicate Succeeded(status: int) {
    200 <= status < 300
  }

  /** `handleGameSubmit`: the save goes to the server; on success the page
      reloads the games and the company, closes and empties the form, leaves
      edit mode and says which kind of save it was; on failure only the
      notice changes. */
  function Save(page: Page, st: Db.Store, env: Server.Env, header: Option<string>,
                verify: (string, string) -> Option<Server.Claims>, number: string -> Option<int>): (r: (Page, Db.Store))
    requires Db.Valid(st)
    ensures Db.Valid(r.1)
    ensures r.0.notice in {Added, Updated, SaveFailed}
    ensures r.0.notice != SaveFailed ==>
      && r.0.form == EmptyForm && r.0.editing.None? && !r.0.showForm
      && (r.0.notice == Updated <==> page.editing.Some?)
      && r.0.games == Db.GetGames(r.1) && r.0.company == Db.GetCompany(r.1)
    ensures r.0.notice == SaveFailed ==> r == (page.(notice := SaveFailed), st)
  {
    var req := SaveRequest(page.form, page.editing, number);
    var answer := Server.HandleAdmin(st, env, header, verify, req);
    SaveFailureKeepsStore(st, env, header, verify, req);
    if Succeeded(answer.0.status) then
      var st' := answer.1;
      (page.(games := Db.GetGames(st'), company := Db.GetCompany(st'), form := EmptyForm, editing := None,
             showForm := false, notice := if page.editing.Some? then Updated else Added), st')
    else (page.(notice := SaveFailed), st)
  }

  /** A game save the server refuses changes nothing on the server. */
  lemma SaveFailureKeepsStore(st: Db.Store, env: Server.Env, header: Option<string>,
                              verify: (string, string) -> Option<Server.Claims>, req: Server.AdminRequest)
    requires Db.Valid(st) && (req.CreateGameRequest? || req.UpdateGameRequest?)
    ensures !Succeeded(Server.HandleAdmin(st, env, header, verify, req).0.status) ==>
      Server.HandleAdmin(st, env, header, verify, req).1 == st
  {
  }

  /** A save with an admin token: a new game is created exactly when the
      database accepts it, and an edited game that still exists is merged
      with the form. */
  lemma SaveAsAdmin(page: Page, st: Db.Store, env: Server.Env, header: Option<string>,
                    verify: (string, string) -> Option<Server.Claims>, number: string -> Option<int>)
    requires Db.Valid(st) && Server.AdminGate(env, header, verify).Ok?
    ensures page.editing.None? ==>
      var created := Db.CreateGame(st, Payload(page.form, number));
      && (Save(page, st, env, header, verify, number).0.notice == Added <==> created.0.Ok?)
      && Save(page, st, env, header, verify, number).1 == created.1
    ensures page.editing.Some? && page.editing.value.id in st.games ==>
      && Save(page, st, env, header, verify, number).0.notice == Updated
      && Save(page, st, env, header, verify, number).1
         == Db.UpdateGame(st, Some(page.editing.value.id), Payload(page.form, number)).1
  {
    var req := SaveRequest(page.form, page.editing, number);
    if page.editing.Some? {
      assert Server.HandleAdmin(st, env, header, verify, req)
          == Server.AdminUpdateGame(st, env, header, verify, req.idParam, req.patch);
    } else {
      assert Server.HandleAdmin(st, env, header, verify, req)
          == Server.AdminCreateGame(st, env, header, verify, req.payload);
    }
  }

  /** Without an admin token nothing is saved and the form stays filled. */
  lemma SaveNeedsAdmin(page: Page, st: Db.Store, env: Server.Env, header: Option<string>,
                       verify: (string, string) -> Option<Server.Claims>, number: string -> Option<int>)
    requires Db.Valid(st) && Server.AdminGate(env, header, verify).Err?
    ensures Save(page, st, env, header, verify, number) == (page.(notice := SaveFailed), st)
  {
  }
}

=== FILE: catalogue.dfy ===
/** The games page: the list the server returns, narrowed by the search box
    and the genre select, ordered by the sort select; and the genre options
    offered by the select. */
module Catalogue {
  import opened Wrappers
  import Text
  import Lists
  import Db

  /** The three controls of the page. */
  datatype View = View(search: string, genre: string, sortBy: string)

  /** On first render nothing is searched or selected and games are sorted by
      rating. */
  const InitialView := View("", "", "rating")

  /** What the page borrows from the browser: `toLowerCase`, the time value of
      `new Date(s)` (None when it is NaN) and `localeCompare`. */
  datatype Locale = Locale(
    lower: string -> string,
    time: string -> Option<int>,
    collate: (string, string) -> int)

  // ---------------------------------------------------------------------------
  // Filtering

  /** The search term occurs, case-insensitively, in the title or description. */
  predicate Matches(g: Db.Game, term: string, loc: Locale)
    ensures Matches(g, term, loc) <==>
      Text.Occurs(loc.lower(g.title), loc.lower(term)) || Text.Occurs(loc.lower(g.description), loc.lower(term))
  {
    Text.Contains(loc.lower(g.title), loc.lower(term))
    || Text.Contains(loc.lower(g.description), loc.lower(term))
  }

  function MatchesSearch(term: string, loc: Locale): Db.Game -> bool {
    (g: Db.Game) => Matches(g, term, loc)
  }

  function OfGenre(genre: string): Db.Game -> bool {
    (g: Db.Game) => g.genre == genre
  }

  /** A game the controls let through. An empty control filters nothing. */
  predicate Selected(g: Db.Game, v: View, loc: Locale) {
    && (v.search != "" ==> Matches(g, v.search, loc))
    && (v.genre != "" ==> g.genre == v.genre)
  }

  /** The search filter, then the genre filter; an empty string skips its
      filter. */
  function Filtered(games: seq<Db.Game>, v: View, loc: Locale): (r: seq<Db.Game>)
    ensures |r| <= |games|
    ensures forall g :: g in r <==> g in games && Selected(g, v, loc)
  {
    var searched := if v.search != "" then Lists.Filter(games, MatchesSearch(v.search, loc)) else games;
    if v.genre != "" then Lists.Filter(searched, OfGenre(v.genre)) else searched
  }

  /** Filtering keeps the server's order (ascending ids). */
  lemma FilteredKeepsOrder(games: seq<Db.Game>, v: View, loc: Locale)
    requires Db.IdsAscending(games)
    ensures Db.IdsAscending(Filtered(games, v, loc))
  {
    var searched := if v.search != "" then Lists.Filter(games, MatchesSearch(v.search, loc)) else games;
    if v.search != "" {
      Lists.FilterKeepsOrder(games, MatchesSearch(v.search, loc), Db.IdBefore);
    }
    assert forall i, j :: 0 <= i < j < |searched| ==> Db.IdBefore(searched[i], searched[j]);
    if v.genre != "" {
      Lists.FilterKeepsOrder(searched, OfGenre(v.genre), Db.IdBefore);
    }
  }

  // ---------------------------------------------------------------------------
  // Sorting

  function ByRating(a: Db.Game, b: Db.Game): int {
    b.rating - a.rating
  }

  function ByPrice(a: Db.Game, b: Db.Game): int {
    a.price - b.price
  }

  /** `new Date(b) - new Date(a)`: NaN when either date does not parse, and
      `sort` reads a NaN comparison as 0. */
  function DateDiff(later: Option<int>, earlier: Option<int>): (d: int)
    ensures later.None? || earlier.None? ==> d == 0
    ensures later.Some? && earlier.Some? ==> (d <= 0 <==> later.value <= earlier.value)
  {
    if later.Some? && earlier.Some? then later.value - earlier.value else 0
  }

  /** The comparator the sort select chooses; an unknown value compares every
      pair equal. */
  function Comparator(sortBy: string, loc: Locale): (r: (Db.Game, Db.Game) -> int)
    ensures sortBy == "rating" ==> forall a: Db.Game, b: Db.Game :: (r(a, b) > 0 <==> b.rating > a.rating) && (r(a, b) == 0 <==> a.rating == b.rating)
    ensures sortBy == "price" ==> forall a: Db.Game, b: Db.Game :: (r(a, b) > 0 <==> a.price > b.price) && (r(a, b) == 0 <==> a.price == b.price)
    ensures sortBy == "title" ==> forall a: Db.Game, b: Db.Game :: r(a, b) == loc.collate(a.title, b.title)
    ensures sortBy == "releaseDate" ==> forall a: Db.Game, b: Db.Game ::
      && (loc.time(a.releaseDate).None? || loc.time(b.releaseDate).None? ==> r(a, b) == 0)
      && (loc.time(a.releaseDate).Some? && loc.time(b.releaseDate).Some? ==>
            (r(a, b) <= 0 <==> loc.time(b.releaseDate).value <= loc.time(a.releaseDate).value))
    ensures sortBy !in {"rating", "price", "title", "releaseDate"} ==> forall a: Db.Game, b: Db.Game :: r(a, b) == 0
  {
    if sortBy == "rating" then ByRating
    else if sortBy == "price" then ByPrice
    else if sortBy == "title" then ByTitle(loc)
    else if sortBy == "releaseDate" then ByReleaseDate(loc)
    else (a: Db.Game, b: Db.Game) => 0
  }

  /** The list the page shows: the selected games, sorted. */
  function Shown(games: seq<Db.Game>, v: View, loc: Locale): (r: seq<Db.Game>)
    ensures multiset(r) == multiset(Filtered(games, v, loc))
    ensures forall g :: g in r <==> g in games && Selected(g, v, loc)
  {
    Lists.Sort(Filtered(games, v, loc), Comparator(v.sortBy, loc))
  }

  /** With no search and no genre every game is shown, each exactly once. */
  lemma ShownAll(games: seq<Db.Game>, v: View, loc: Locale)
    requires v.search == "" && v.genre == ""
    ensures multiset(Shown(games, v, loc)) == multiset(games)
  {
  }

  /** On first render every game is shown, highest rated first. */
  lemma InitialShown(games: seq<Db.Game>, loc: Locale)
    ensures multiset(Shown(games, InitialView, loc)) == multiset(games)
    ensures forall i, j :: 0 <= i < j < |Shown(games, InitialView, loc)| ==>
      Shown(games, InitialView, loc)[i].rating >= Shown(games, InitialView, loc)[j].rating
  {
    ShownAll(games, InitialView, loc);
    ShownByRating(games, InitialView, loc);
  }

  /** Sorted by rating: highest first. */
  lemma ShownByRating(games: seq<Db.Game>, v: View, loc: Locale)
    requires v.sortBy == "rating"
    ensures forall i, j :: 0 <= i < j < |Shown(games, v, loc)| ==>
      Shown(games, v, loc)[i].rating >= Shown(games, v, loc)[j].rating
  {
    var f := Filtered(games, v, loc);
    assert Comparator(v.sortBy, loc) == ByRating;
    Lists.SortSorted(f, ByRating);
  }

  /** Sorted by price: cheapest first. */
  lemma ShownByPrice(games: seq<Db.Game>, v: View, loc: Locale)
    requires v.sortBy == "price"
    ensures forall i, j :: 0 <= i < j < |Shown(games, v, loc)| ==>
      Shown(games, v, loc)[i].price <= Shown(games, v, loc)[j].price
  {
    var f := Filtered(games, v, loc);
    assert Comparator(v.sortBy, loc) == ByPrice;
    Lists.SortSorted(f, ByPrice);
  }

  /** `localeCompare` orders every pair of these titles and chains. */
  ghost predicate CollationConsistent(games: seq<Db.Game>, loc: Locale) {
    && (forall a, b :: a in games && b in games ==>
          loc.collate(a.title, b.title) <= 0 || loc.collate(b.title, a.title) <= 0)
    && (forall a, b, c :: a in games && b in games && c in games
          && loc.collate(a.title, b.title) <= 0 && loc.collate(b.title, c.title) <= 0
          ==> loc.collate(a.title, c.title) <= 0)
  }

  function ByTitle(loc: Locale): (Db.Game, Db.Game) -> int {
    (a: Db.Game, b: Db.Game) => loc.collate(a.title, b.title)
  }

  /** Sorted by title: in collation order, given a collation that orders the
      titles. */
  lemma ShownByTitle(games: seq<Db.Game>, v: View, loc: Locale)
    requires v.sortBy == "title" && CollationConsistent(games, loc)
    ensures forall i, j :: 0 <= i < j < |Shown(games, v, loc)| ==>
      loc.collate(Shown(games, v, loc)[i].title, Shown(games, v, loc)[j].title) <= 0
  {
    var f := Filtered(games, v, loc);
    var cmp := ByTitle(loc);
    assert Comparator(v.sortBy, loc) == cmp;
    assert Lists.ConsistentOn(cmp, f) by {
      forall a, b | a in f && b in f ensures cmp(a, b) <= 0 || cmp(b, a) <= 0 {
        assert a in games && b in games;
      }
      forall a, b, c | a in f && b in f && c in f && cmp(a, b) <= 0 && cmp(b, c) <= 0
        ensures cmp(a, c) <= 0
      {
        assert a in games && b in games && c in games;
      }
    }
    Lists.SortSorted(f, cmp);
  }

  /** Every game's release date parses. */
  predicate DatesParse(games: seq<Db.Game>, loc: Locale) {
    forall i :: 0 <= i < |games| ==> loc.time(games[i].releaseDate).Some?
  }

  /** `a` was released no earlier than `b`, both dates parsing. */
  predicate NotOlder(a: Db.Game, b: Db.Game, loc: Locale) {
    && loc.time(a.releaseDate).Some?
    && loc.time(b.releaseDate).Some?
    && loc.time(b.releaseDate).value <= loc.time(a.releaseDate).value
  }

  function ByReleaseDate(loc: Locale): (Db.Game, Db.Game) -> int {
    (a: Db.Game, b: Db.Game) => DateDiff(loc.time(b.releaseDate), loc.time(a.releaseDate))
  }

  /** Sorted by release date: newest first, when every date parses. */
  lemma ShownByReleaseDate(games: seq<Db.Game>, v: View, loc: Locale)
    requires v.sortBy == "releaseDate" && DatesParse(games, loc)
    ensures forall i, j :: 0 <= i < j < |Shown(games, v, loc)| ==>
      NotOlder(Shown(games, v, loc)[i], Shown(games, v, loc)[j], loc)
  {
    var f := Filtered(games, v, loc);
    var cmp := ByReleaseDate(loc);
    assert Comparator(v.sortBy, loc) == cmp;
    assert forall g :: g in f ==> loc.time(g.releaseDate).Some? by {
      forall g | g in f ensures loc.time(g.releaseDate).Some? {
        var k :| 0 <= k < |games| && games[k] == g;
      }
    }
    Lists.SortSorted(f, cmp);
    var r := Shown(games, v, loc);
    forall i, j | 0 <= i < j < |r| ensures NotOlder(r[i], r[j], loc) {
      assert r[i] in f && r[j] in f;
      assert cmp(r[i], r[j]) <= 0;
    }
  }

  /** A sort value outside the four options leaves the filtered order as is. */
  lemma ShownUnsorted(games: seq<Db.Game>, v: View, loc: Locale)
    requires v.sortBy !in {"rating", "price", "title", "releaseDate"}
    ensures Shown(games, v, loc) == Filtered(games, v, loc)
  {
    var cmp := Comparator(v.sortBy, loc);
    assert forall a, b :: cmp(a, b) == 0;
    Lists.SortUnchanged(Filtered(games, v, loc), cmp);
  }

  function RatedAt(k: int): Db.Game -> bool {
    (g: Db.Game) => g.rating == k
  }

  function PricedAt(k: int): Db.Game -> bool {
    (g: Db.Game) => g.price == k
  }

  /** Games of equal rating keep the order in which the server listed them. */
  lemma ShownRatingTies(games: seq<Db.Game>, v: View, loc: Locale, k: int)
    requires v.sortBy == "rating"
    ensures Lists.Filter(Shown(games, v, loc), RatedAt(k)) == Lists.Filter(Filtered(games, v, loc), RatedAt(k))
  {
    var f := Filtered(games, v, loc);
    assert Comparator(v.sortBy, loc) == ByRating;
    Lists.SortStable(f, ByRating, RatedAt(k));
  }

  /** Games of equal price keep the order in which the server listed them. */
  lemma ShownPriceTies(games: seq<Db.Game>, v: View, loc: Locale, k: int)
    requires v.sortBy == "price"
    ensures Lists.Filter(Shown(games, v, loc), PricedAt(k)) == Lists.Filter(Filtered(games, v, loc), PricedAt(k))
  {
    var f := Filtered(games, v, loc);
    assert Comparator(v.sortBy, loc) == ByPrice;
    Lists.SortStable(f, ByPrice, PricedAt(k));
  }

  // ---------------------------------------------------------------------------
  // The genre select

  function GenreOf(games: seq<Db.Game>): (r: seq<string>)
    ensures |r| == |games| && forall i :: 0 <= i < |games| ==> r[i] == games[i].genre
  {
    seq(|games|, i requires 0 <= i < |games| => games[i].genre)
  }

  /** `[...new Set(games.map(game => game.genre))]` */
  function Genres(games: seq<Db.Game>): (r: seq<string>)
    ensures forall s :: s in r <==> exists i :: 0 <= i < |games| && games[i].genre == s
    ensures forall i, j :: 0 <= i < j < |r| ==> r[i] != r[j]
  {
    var all := GenreOf(games);
    var r := Lists.Distinct(all);
    assert forall s :: s in all <==> exists i :: 0 <= i < |games| && games[i].genre == s by {
      forall s | s in all ensures exists i :: 0 <= i < |games| && games[i].genre == s {
        var i :| 0 <= i < |all| && all[i] == s;
      }
    }
    r
  }

  /** Genres are offered in the order in which each first appears. */
  lemma GenresInFirstAppearanceOrder(games: seq<Db.Game>)
    ensures forall i, j :: 0 <= i < j < |Genres(games)| ==>
      Lists.FirstIndex(GenreOf(games), Genres(games)[i]) < Lists.FirstIndex(GenreOf(games), Genres(games)[j])
  {
    Lists.DistinctFirstOccurrenceOrder(GenreOf(games));
  }

  // ---------------------------------------------------------------------------
  // The effect as the page runs it

  /** The page's effect as written: `let filtered = games` and then
      `filtered.sort(...)` sorts in place, so with no search and no genre it
      reorders the `games` state itself. Returns the shown list and the
      `games` state afterwards. */
  function EffectAsWritten(games: seq<Db.Game>, v: View, loc: Locale): (r: (seq<Db.Game>, seq<Db.Game>))
    ensures multiset(r.0) == multiset(Filtered(games, v, loc))
    ensures multiset(r.1) == multiset(games)
    ensures v.search != "" || v.genre != "" ==> r == (Shown(games, v, loc), games)
  {
    var sorted := Lists.Sort(Filtered(games, v, loc), Comparator(v.sortBy, loc));
    if v.search == "" && v.genre == "" then (sorted, sorted) else (sorted, games)
  }

  /** Two games of equal rating, the cheaper one listed second. */
  function TieGame(id: int, price: int, genre: string): Db.Game {
    Db.Game(id, "G", genre, "", "2020-01-01", price, 400, "", "", Db.EmptyList, Db.EmptyList, Db.EmptyRequirements)
  }

  const PlainLocale := Locale(s => s, s => None, (a, b) => 0)

  const TieA := TieGame(1, 2000, "RPG")
  const TieB := TieGame(2, 1000, "Action")

  /** Sorting by price reorders the `games` state itself. */
  lemma EffectAsWrittenReordersGames()
    ensures EffectAsWritten([TieA, TieB], View("", "", "price"), PlainLocale).1 == [TieB, TieA]
  {
    assert Filtered([TieA, TieB], View("", "", "price"), PlainLocale) == [TieA, TieB];
    Lists.SortPair(TieA, TieB, ByPrice);
  }

  /** After sorting by price, sorting by rating shows the two tied games in
      price order, where a fresh page (and the same view with a genre
      selected) shows them in server order. */
  lemma EffectAsWrittenRemembersEarlierSort()
    ensures EffectAsWritten([TieB, TieA], View("", "", "rating"), PlainLocale).0 == [TieB, TieA]
    ensures Shown([TieA, TieB], View("", "", "rating"), PlainLocale) == [TieA, TieB]
  {
    var rating := View("", "", "rating");
    assert Filtered([TieB, TieA], rating, PlainLocale) == [TieB, TieA];
    Lists.SortPair(TieB, TieA, ByRating);
    assert Filtered([TieA, TieB], rating, PlainLocale) == [TieA, TieB];
    Lists.SortPair(TieA, TieB, ByRating);
  }

  /** The reordered `games` state swaps the genre options too. */
  lemma EffectAsWrittenSwapsGenres()
    ensures Genres([TieB, TieA]) == ["Action", "RPG"]
    ensures Genres([TieA, TieB]) == ["RPG", "Action"]
  {
    assert GenreOf([TieB, TieA]) == ["Action", "RPG"];
    Lists.DistinctPair("Action", "RPG");
    assert GenreOf([TieA, TieB]) == ["RPG", "Action"];
    Lists.DistinctPair("RPG", "Action");
  }

  /** The page with the effect corrected: the shown list is a function of the
      server's list and the controls alone, and the `games` state is never
      reordered, so ties always appear in server order. */
  function Effect(games: seq<Db.Game>, v: View, loc: Locale): (r: (seq<Db.Game>, seq<Db.Game>))
    ensures r.1 == games
    ensures multiset(r.0) == multiset(Filtered(games, v, loc))
  {
    (Shown(games, v, loc), games)
  }

  /** However the controls were set before, the corrected page shows the same
      list for the same controls, and rating ties keep server order. */
  lemma EffectForgetsEarlierSort(games: seq<Db.Game>, earlier: View, v: View, loc: Locale, k: int)
    requires v.sortBy == "rating"
    ensures Effect(Effect(games, earlier, loc).1, v, loc) == Effect(games, v, loc)
    ensures Lists.Filter(Effect(games, v, loc).0, RatedAt(k)) == Lists.Filter(Filtered(games, v, loc), RatedAt(k))
  {
    ShownRatingTies(games, v, loc, k);
  }
}

=== FILE: db.dfy ===
/** The storage layer of the backend: three SQLite tables (`games`, the
    single-row `company_info`, `users`) held as immutable values, and every
    operation as a function from a store to its result and the next store.
    Structured columns hold JSON text that is decoded on every read, with a
    fallback when the text is missing or does not parse. */
module Db {
  import opened Wrappers
  import opened Json

  /** The largest rowid SQLite assigns; an AUTOINCREMENT insert past it fails
      with SQLITE_FULL. */
  const MaxRowId: int := 0x7FFF_FFFF_FFFF_FFFF

  // ---------------------------------------------------------------------------
  // Rows as stored. Prices and ratings are fixed-point hundredths.

  /** A `games` row without its key; the key is the map index. The last three
      columns may be NULL. */
  datatype GameRow = GameRow(
    title: string, genre: string, description: string, releaseDate: string,
    price: int, rating: int, image: string, trailer: string,
    screenshots: Option<string>, features: Option<string>, systemRequirements: Option<string>)

  /** The `company_info` row; its key is always 1 (`CHECK (id = 1)`). */
  datatype CompanyRow = CompanyRow(
    name: string, founded: string, employees: string, location: string,
    description: string, vision: string, mission: string,
    achievements: Option<string>, team: Option<string>)

  datatype UserRow = UserRow(email: string, passwordHash: string, name: string, role: string)

  /** The database. `lastGameId`/`lastUserId` are the tables' entries in
      `sqlite_sequence`: the largest id AUTOINCREMENT has handed out. The company
      table has at most one row, so it is an `Option`. */
  datatype Store = Store(
    games: map<int, GameRow>, lastGameId: int,
    company: Option<CompanyRow>,
    users: map<int, UserRow>, lastUserId: int)

  const EmptyStore := Store(map[], 0, None, map[], 0)

  predicate UniqueEmails(users: map<int, UserRow>) {
    forall a, b :: a in users && b in users && users[a].email == users[b].email ==> a == b
  }

  /** What the schema and AUTOINCREMENT guarantee of every reachable store. */
  predicate Valid(st: Store) {
    && 0 <= st.lastGameId <= MaxRowId
    && (forall id :: id in st.games ==> 1 <= id <= st.lastGameId)
    && 0 <= st.lastUserId <= MaxRowId
    && (forall id :: id in st.users ==> 1 <= id <= st.lastUserId)
    && UniqueEmails(st.users)
  }

  // ---------------------------------------------------------------------------
  // Objects handed to the callers

  datatype Game = Game(
    id: int, title: string, genre: string, description: string, releaseDate: string,
    price: int, rating: int, image: string, trailer: string,
    screenshots: Json, features: Json, systemRequirements: Json)

  datatype Company = Company(
    id: int, name: string, founded: string, employees: string, location: string,
    description: string, vision: string, mission: string,
    achievements: Json, team: Json)

  /** A `users` row as `SELECT *` returns it, hash included. */
  datatype User = User(id: int, email: string, passwordHash: string, name: string, role: string)

  // ---------------------------------------------------------------------------
  // Objects handed in: JavaScript objects whose properties may be missing

  /** A game payload; `None` is a missing property. `id` is whatever the
      payload carries, and no operation reads it. */
  datatype GameFields = GameFields(
    id: Option<int>, title: Option<string>, genre: Option<string>, description: Option<string>,
    releaseDate: Option<string>, price: Option<int>, rating: Option<int>,
    image: Option<string>, trailer: Option<string>,
    screenshots: Option<Json>, features: Option<Json>, systemRequirements: Option<Json>)

  datatype CompanyFields = CompanyFields(
    name: Option<string>, founded: Option<string>, employees: Option<string>, location: Option<string>,
    description: Option<string>, vision: Option<string>, mission: Option<string>,
    achievements: Option<Json>, team: Option<Json>)

  datatype NewUser = NewUser(email: Option<string>, passwordHash: Option<string>, name: Option<string>, role: Option<string>)

  /** Why SQLite rejects a statement. */
  datatype DbError = NotNullViolation | UniqueViolation | RowIdExhausted

  const NoFields := GameFields(None, None, None, None, None, None, None, None, None, None, None, None)

  const EmptyList := JArr([])

  /** `{ minimum: {}, recommended: {} }` */
  const EmptyRequirements := JObj([Member("minimum", JObj([])), Member("recommended", JObj([]))])

  // ---------------------------------------------------------------------------
  // Decoding rows (server/db.js:34-74)

  /** `parseJsonField`: a missing or empty text, or one that does not parse,
      yields the fallback; otherwise the parsed value. It never fails. */
  function ParseJsonField(value: Option<string>, fallback: Json): (r: Json)
    ensures value.None? || value.value == "" ==> r == fallback
    ensures value.Some? && value.value != "" && Parse(value.value).None? ==> r == fallback
    ensures value.Some? && value.value != "" && Parse(value.value).Some? ==> r == Parse(value.value).value
  {
    if value.None? || value.value == "" then fallback
    else match Parse(value.value)
      case Some(j) => j
      case None => fallback
  }

  /** A column written by `JSON.stringify(j)` decodes to `j`, whatever the fallback. */
  lemma ParseJsonFieldOfStringify(j: Json, fallback: Json)
    ensures ParseJsonField(Some(Stringify(j)), fallback) == j
  {
    ParseOfStringify(j);
  }

  /** `serializeGameRow`: the columns as stored, the three JSON columns
      decoded, with `[]` or empty requirements when a column is empty or
      does not parse. */
  function SerializeGameRow(id: int, row: GameRow): (r: Game)
    ensures r.id == id && r.title == row.title && r.genre == row.genre
    ensures r.description == row.description && r.releaseDate == row.releaseDate
    ensures r.price == row.price && r.rating == row.rating && r.image == row.image && r.trailer == row.trailer
    ensures r.screenshots == ParseJsonField(row.screenshots, EmptyList)
    ensures r.features == ParseJsonField(row.features, EmptyList)
    ensures r.systemRequirements == ParseJsonField(row.systemRequirements, EmptyRequirements)
  {
    Game(id, row.title, row.genre, row.description, row.releaseDate,
      row.price, row.rating, row.image, row.trailer,
      ParseJsonField(row.screenshots, EmptyList),
      ParseJsonField(row.features, EmptyList),
      ParseJsonField(row.systemRequirements, EmptyRequirements))
  }

  /** A company read back from its row: the text columns as stored and the
      two lists decoded, `[]` when empty or unparsable. */
  predicate ReadsAs(c: Company, row: CompanyRow) {
    && c.name == row.name && c.founded == row.founded && c.employees == row.employees
    && c.location == row.location && c.description == row.description
    && c.vision == row.vision && c.mission == row.mission
    && c.achievements == ParseJsonField(row.achievements, EmptyList)
    && c.team == ParseJsonField(row.team, EmptyList)
  }

  /** `serializeCompanyRow`: `null` without a row; the one row has id 1. */
  function SerializeCompanyRow(row: Option<CompanyRow>): (r: Option<Company>)
    ensures r.Some? <==> row.Some?
    ensures r.Some? ==> r.value.id == 1 && ReadsAs(r.value, row.value)
  {
    match row
    case None => None
    case Some(c) =>
      Some(Company(1, c.name, c.founded, c.employees, c.location, c.description, c.vision, c.mission,
        ParseJsonField(c.achievements, EmptyList), ParseJsonField(c.team, EmptyList)))
  }

  // ---------------------------------------------------------------------------
  // ORDER BY id ASC

  lemma Pick(s: set<int>) returns (y: int)
    requires s != {}
    ensures y in s
  {
    if forall x :: x !in s {
      assert false;
    }
    y :| y in s;
  }

  lemma Minimum(s: set<int>) returns (m: int)
    requires s != {}
    ensures m in s && forall x :: x in s ==> m <= x
  {
    var y := Pick(s);
    var rest := s - {y};
    if z :| z in rest {
      var m' := Minimum(rest);
      m := if y < m' then y else m';
      forall x | x in s ensures m <= x {
        if x != y { assert x in rest; }
      }
    } else {
      m := y;
      forall x | x in s ensures m <= x {
        assert x !in rest;
      }
    }
  }

  lemma MinimumExists(s: set<int>)
    requires s != {}
    ensures exists m :: m in s && forall x :: x in s ==> m <= x
  {
    var m := Minimum(s);
  }

  /** The keys of a table in ascending order, each exactly once. */
  function SortedIds(ids: set<int>): (r: seq<int>)
    ensures forall i, j :: 0 <= i < j < |r| ==> r[i] < r[j]
    ensures forall id :: id in ids <==> id in r
    decreases ids
  {
    if ids == {} then []
    else
      MinimumExists(ids);
      var m :| m in ids && forall x :: x in ids ==> m <= x;
      [m] + SortedIds(ids - {m})
  }

  function IdsOf(games: seq<Game>): (r: seq<int>)
    ensures |r| == |games| && forall i :: 0 <= i < |r| ==> r[i] == games[i].id
  {
    seq(|games|, i requires 0 <= i < |games| => games[i].id)
  }

  // ---------------------------------------------------------------------------
  // Games (server/db.js:163-250)

  /** `getGames`: every stored game, decoded, in strictly ascending id order. */
  function IdBefore(a: Game, b: Game): bool {
    a.id < b.id
  }

  /** Strictly ascending ids, as `ORDER BY id ASC` lists them. */
  predicate IdsAscending(games: seq<Game>) {
    forall i, j :: 0 <= i < j < |games| ==> IdBefore(games[i], games[j])
  }

  function GetGames(st: Store): (r: seq<Game>)
    ensures IdsAscending(r)
    ensures forall id :: id in st.games <==> id in IdsOf(r)
    ensures forall i :: 0 <= i < |r| ==> r[i].id in st.games && r[i] == SerializeGameRow(r[i].id, st.games[r[i].id])
  {
    var ids := SortedIds(st.games.Keys);
    var r := seq(|ids|, i requires 0 <= i < |ids| => SerializeGameRow(ids[i], st.games[ids[i]]));
    assert IdsOf(r) == ids;
    r
  }

  /** `getGameById`; `None` as the id is `NaN`, which SQLite binds as NULL and
      which matches no row. */
  function GetGameById(st: Store, id: Option<int>): (r: Option<Game>)
    ensures r.Some? <==> id.Some? && id.value in st.games
    ensures r.Some? ==> r.value.id == id.value
    ensures r.Some? ==>
      var row := st.games[id.value];
      && r.value.title == row.title && r.value.genre == row.genre
      && r.value.description == row.description && r.value.releaseDate == row.releaseDate
      && r.value.price == row.price && r.value.rating == row.rating
      && r.value.image == row.image && r.value.trailer == row.trailer
      && r.value.screenshots == ParseJsonField(row.screenshots, EmptyList)
      && r.value.features == ParseJsonField(row.features, EmptyList)
      && r.value.systemRequirements == ParseJsonField(row.systemRequirements, EmptyRequirements)
  {
    if id.Some? && id.value in st.games then Some(SerializeGameRow(id.value, st.games[id.value])) else None
  }

  /** Looking a game up by id finds exactly the game the listing shows for it. */
  lemma GetGameByIdAgreesWithGetGames(st: Store, id: int)
    ensures GetGameById(st, Some(id)).Some? <==> id in IdsOf(GetGames(st))
    ensures forall i :: 0 <= i < |GetGames(st)| && GetGames(st)[i].id == id ==> GetGameById(st, Some(id)) == Some(GetGames(st)[i])
  {
  }

  /** The row `INSERT INTO games` writes for a payload, or `None` when a NOT
      NULL column would be NULL. Missing structured fields become `[]` and
      `{minimum: {}, recommended: {}}`. */
  function GameRowOf(g: GameFields): (r: Option<GameRow>)
    ensures r.Some? <==> (g.title.Some? && g.genre.Some? && g.description.Some? && g.releaseDate.Some?
                          && g.price.Some? && g.rating.Some? && g.image.Some? && g.trailer.Some?)
  {
    if g.title.None? || g.genre.None? || g.description.None? || g.releaseDate.None?
       || g.price.None? || g.rating.None? || g.image.None? || g.trailer.None? then None
    else Some(GameRow(g.title.value, g.genre.value, g.description.value, g.releaseDate.value,
      g.price.value, g.rating.value, g.image.value, g.trailer.value,
      Some(Stringify(OrElse(g.screenshots, EmptyList))),
      Some(Stringify(OrElse(g.features, EmptyList))),
      Some(Stringify(OrElse(g.systemRequirements, EmptyRequirements)))))
  }

  /** The game a payload reads back as once stored under `id`. */
  predicate StoredAs(game: Game, id: int, g: GameFields) {
    && game.id == id
    && Some(game.title) == g.title && Some(game.genre) == g.genre
    && Some(game.description) == g.description && Some(game.releaseDate) == g.releaseDate
    && Some(game.price) == g.price && Some(game.rating) == g.rating
    && Some(game.image) == g.image && Some(game.trailer) == g.trailer
    && game.screenshots == OrElse(g.screenshots, EmptyList)
    && game.features == OrElse(g.features, EmptyList)
    && game.systemRequirements == OrElse(g.systemRequirements, EmptyRequirements)
  }

  lemma SerializeGameRowOf(id: int, g: GameFields)
    requires GameRowOf(g).Some?
    ensures StoredAs(SerializeGameRow(id, GameRowOf(g).value), id, g)
  {
    ParseJsonFieldOfStringify(OrElse(g.screenshots, EmptyList), EmptyList);
    ParseJsonFieldOfStringify(OrElse(g.features, EmptyList), EmptyList);
    ParseJsonFieldOfStringify(OrElse(g.systemRequirements, EmptyRequirements), EmptyRequirements);
  }

  /** One `INSERT INTO games`: the new id is one past the last id AUTOINCREMENT
      handed out. A failed insert changes nothing. */
  function InsertGame(st: Store, g: GameFields): (r: (Result<int, DbError>, Store))
    requires Valid(st)
    ensures Valid(r.1)
    ensures r.0.Err? ==> r.1 == st
    ensures r.0.Err? <==> st.lastGameId >= MaxRowId || GameRowOf(g).None?
    ensures r.0.Ok? ==>
      && r.0.value == st.lastGameId + 1
      && r.1 == st.(games := st.games[r.0.value := GameRowOf(g).value], lastGameId := r.0.value)
  {
    if st.lastGameId >= MaxRowId then (Err(RowIdExhausted), st)
    else match GameRowOf(g)
      case None => (Err(NotNullViolation), st)
      case Some(row) =>
        var id := st.lastGameId + 1;
        (Ok(id), st.(games := st.games[id := row], lastGameId := id))
  }

  /** `createGame`: inserts the payload and reads the new row back. The id is
      larger than every id the table holds or ever held; every other row, the
      company and the users are untouched. */
  function CreateGame(st: Store, g: GameFields): (r: (Result<Game, DbError>, Store))
    requires Valid(st)
    ensures Valid(r.1)
    ensures r.0.Err? ==> r.1 == st
    ensures r.0.Err? <==> st.lastGameId == MaxRowId || GameRowOf(g).None?
    ensures r.0.Ok? ==>
      && StoredAs(r.0.value, r.0.value.id, g)
      && r.0.value.id > st.lastGameId
      && (forall id :: id in st.games ==> id < r.0.value.id)
      && r.1.games.Keys == st.games.Keys + {r.0.value.id}
      && (forall id :: id in st.games ==> r.1.games[id] == st.games[id])
      && r.1.company == st.company && r.1.users == st.users
      && GetGameById(r.1, Some(r.0.value.id)) == Some(r.0.value)
  {
    var (res, st') := InsertGame(st, g);
    match res
    case Err(e) => (Err(e), st)
    case Ok(id) =>
      SerializeGameRowOf(id, g);
      (Ok(GetGameById(st', Some(id)).value), st')
  }

  /** The row `UPDATE games` writes: every property the patch carries
      overrides the existing value, every other one is kept, and the
      structured values go through `x || default` before being stringified. */
  /** The row `UPDATE games` writes: each field of the payload wins over the
      stored one, and the three lists read back as the merged value with its
      `||` default. */
  function MergedGameRow(existing: Game, patch: GameFields): (r: GameRow)
    ensures r.title == patch.title.GetOr(existing.title) && r.genre == patch.genre.GetOr(existing.genre)
    ensures r.description == patch.description.GetOr(existing.description)
    ensures r.releaseDate == patch.releaseDate.GetOr(existing.releaseDate)
    ensures r.price == patch.price.GetOr(existing.price) && r.rating == patch.rating.GetOr(existing.rating)
    ensures r.image == patch.image.GetOr(existing.image) && r.trailer == patch.trailer.GetOr(existing.trailer)
    ensures ParseJsonField(r.screenshots, EmptyList) == OrElse(Some(patch.screenshots.GetOr(existing.screenshots)), EmptyList)
    ensures ParseJsonField(r.features, EmptyList) == OrElse(Some(patch.features.GetOr(existing.features)), EmptyList)
    ensures ParseJsonField(r.systemRequirements, EmptyRequirements)
      == OrElse(Some(patch.systemRequirements.GetOr(existing.systemRequirements)), EmptyRequirements)
  {
    ParseJsonFieldOfStringify(OrElse(Some(patch.screenshots.GetOr(existing.screenshots)), EmptyList), EmptyList);
    ParseJsonFieldOfStringify(OrElse(Some(patch.features.GetOr(existing.features)), EmptyList), EmptyList);
    ParseJsonFieldOfStringify(OrElse(Some(patch.systemRequirements.GetOr(existing.systemRequirements)), EmptyRequirements), EmptyRequirements);
    GameRow(
      patch.title.GetOr(existing.title), patch.genre.GetOr(existing.genre),
      patch.description.GetOr(existing.description), patch.releaseDate.GetOr(existing.releaseDate),
      patch.price.GetOr(existing.price), patch.rating.GetOr(existing.rating),
      patch.image.GetOr(existing.image), patch.trailer.GetOr(existing.trailer),
      Some(Stringify(OrElse(Some(patch.screenshots.GetOr(existing.screenshots)), EmptyList))),
      Some(Stringify(OrElse(Some(patch.features.GetOr(existing.features)), EmptyList))),
      Some(Stringify(OrElse(Some(patch.systemRequirements.GetOr(existing.systemRequirements)), EmptyRequirements))))
  }

  /** The game read back after a merge: the payload's property where it has
      one, the existing value elsewhere; the id is the one the row is stored
      under, whatever `id` the payload carries. */
  predicate MergedAs(game: Game, existing: Game, patch: GameFields) {
    && game.id == existing.id
    && game.title == patch.title.GetOr(existing.title)
    && game.genre == patch.genre.GetOr(existing.genre)
    && game.description == patch.description.GetOr(existing.description)
    && game.releaseDate == patch.releaseDate.GetOr(existing.releaseDate)
    && game.price == patch.price.GetOr(existing.price)
    && game.rating == patch.rating.GetOr(existing.rating)
    && game.image == patch.image.GetOr(existing.image)
    && game.trailer == patch.trailer.GetOr(existing.trailer)
    && game.screenshots == OrElse(Some(patch.screenshots.GetOr(existing.screenshots)), EmptyList)
    && game.features == OrElse(Some(patch.features.GetOr(existing.features)), EmptyList)
    && game.systemRequirements == OrElse(Some(patch.systemRequirements.GetOr(existing.systemRequirements)), EmptyRequirements)
  }

  /** `updateGame`: `None` and an unchanged store when no row has the id;
      otherwise the merged row replaces the old one under the same id and
      nothing else changes. */
  function UpdateGame(st: Store, id: Option<int>, patch: GameFields): (r: (Option<Game>, Store))
    requires Valid(st)
    ensures Valid(r.1)
    ensures GetGameById(st, id).None? ==> r == (None, st)
    ensures GetGameById(st, id).Some? ==>
      && r.0.Some?
      && MergedAs(r.0.value, GetGameById(st, id).value, patch)
      && r.1 == st.(games := st.games[id.value := MergedGameRow(GetGameById(st, id).value, patch)])
      && GetGameById(r.1, id) == r.0
  {
    match GetGameById(st, id)
    case None => (None, st)
    case Some(existing) =>
      var row := MergedGameRow(existing, patch);
      var st' := st.(games := st.games[id.value := row]);
      ParseJsonFieldOfStringify(OrElse(Some(patch.screenshots.GetOr(existing.screenshots)), EmptyList), EmptyList);
      ParseJsonFieldOfStringify(OrElse(Some(patch.features.GetOr(existing.features)), EmptyList), EmptyList);
      ParseJsonFieldOfStringify(OrElse(Some(patch.systemRequirements.GetOr(existing.systemRequirements)), EmptyRequirements), EmptyRequirements);
      (GetGameById(st', id), st')
  }

  /** `deleteGame`: removes the row if there is one and always reports success. */
  function DeleteGame(st: Store, id: Option<int>): (r: (bool, Store))
    ensures r.0
    ensures r.1.games.Keys == if id.Some? then st.games.Keys - {id.value} else st.games.Keys
    ensures forall k :: k in r.1.games ==> r.1.games[k] == st.games[k]
    ensures r.1.lastGameId == st.lastGameId && r.1.company == st.company && r.1.users == st.users
    ensures GetGameById(r.1, id).None?
    ensures Valid(st) ==> Valid(r.1)
  {
    if id.Some? then (true, st.(games := st.games - {id.value})) else (true, st)
  }

  /** Deleting twice is deleting once. */
  lemma DeleteGameIdempotent(st: Store, id: Option<int>)
    ensures DeleteGame(DeleteGame(st, id).1, id) == DeleteGame(st, id)
  {
    if id.Some? {
      var once := st.games - {id.value};
      assert once - {id.value} == once;
    }
  }

  /** AUTOINCREMENT never hands out an id again: a game created after a
      delete gets an id above the deleted one. */
  lemma DeletedIdNotReused(st: Store, id: int, g: GameFields)
    requires Valid(st) && id in st.games
    ensures
      var afterDelete := DeleteGame(st, Some(id)).1;
      CreateGame(afterDelete, g).0.Ok? ==> CreateGame(afterDelete, g).0.value.id > id
  {
  }

  function TitlePatch(title: string): GameFields {
    NoFields.(title := Some(title))
  }

  /** A patch with only a title changes only the title, as long as the
      game's structured fields are not falsy (falsy ones are reset to their
      defaults by the merge). */
  lemma UpdateTitleOnly(st: Store, id: int, title: string)
    requires Valid(st) && id in st.games
    requires
      var g := GetGameById(st, Some(id)).value;
      !Falsy(g.screenshots) && !Falsy(g.features) && !Falsy(g.systemRequirements)
    ensures UpdateGame(st, Some(id), TitlePatch(title)).0 == Some(GetGameById(st, Some(id)).value.(title := title))
  {
  }

  // ---------------------------------------------------------------------------
  // Company (server/db.js:252-287)

  /** `getCompany`: the row with id 1, read back. */
  function GetCompany(st: Store): (r: Option<Company>)
    ensures r.Some? <==> st.company.Some?
    ensures r.Some? ==> r.value.id == 1 && ReadsAs(r.value, st.company.value)
  {
    SerializeCompanyRow(st.company)
  }

  /** The row `INSERT INTO company_info` writes, `None` when the name is missing. */
  function CompanyRowOf(c: CompanyFields): (r: Option<CompanyRow>)
    ensures r.Some? <==> c.name.Some?
  {
    if c.name.None? then None
    else Some(CompanyRow(c.name.value,
      c.founded.GetOr(""), c.employees.GetOr(""), c.location.GetOr(""),
      c.description.GetOr(""), c.vision.GetOr(""), c.mission.GetOr(""),
      Some(Stringify(OrElse(c.achievements, EmptyList))),
      Some(Stringify(OrElse(c.team, EmptyList)))))
  }

  /** The row `UPDATE company_info` writes: each field of the payload wins
      over the stored one, and the two lists read back as the merged value
      with its `|| []` default. */
  function MergedCompanyRow(existing: Company, patch: CompanyFields): (r: CompanyRow)
    ensures r.name == patch.name.GetOr(existing.name) && r.founded == patch.founded.GetOr(existing.founded)
    ensures r.employees == patch.employees.GetOr(existing.employees) && r.location == patch.location.GetOr(existing.location)
    ensures r.description == patch.description.GetOr(existing.description)
    ensures r.vision == patch.vision.GetOr(existing.vision) && r.mission == patch.mission.GetOr(existing.mission)
    ensures ParseJsonField(r.achievements, EmptyList) == OrElse(Some(patch.achievements.GetOr(existing.achievements)), EmptyList)
    ensures ParseJsonField(r.team, EmptyList) == OrElse(Some(patch.team.GetOr(existing.team)), EmptyList)
  {
    ParseJsonFieldOfStringify(OrElse(Some(patch.achievements.GetOr(existing.achievements)), EmptyList), EmptyList);
    ParseJsonFieldOfStringify(OrElse(Some(patch.team.GetOr(existing.team)), EmptyList), EmptyList);
    CompanyRow(patch.name.GetOr(existing.name),
      patch.founded.GetOr(existing.founded), patch.employees.GetOr(existing.employees),
      patch.location.GetOr(existing.location), patch.description.GetOr(existing.description),
      patch.vision.GetOr(existing.vision), patch.mission.GetOr(existing.mission),
      Some(Stringify(OrElse(Some(patch.achievements.GetOr(existing.achievements)), EmptyList))),
      Some(Stringify(OrElse(Some(patch.team.GetOr(existing.team)), EmptyList))))
  }

  /** `updateCompany`: merges the payload into the one row and reads it back.
      Without a row the UPDATE matches nothing and the result is `None`. The
      games and users are untouched, and the row keeps id 1. */
  function UpdateCompany(st: Store, patch: CompanyFields): (r: (Option<Company>, Store))
    ensures st.company.None? ==> r == (None, st)
    ensures st.company.Some? ==>
      && r.0.Some? && r.0.value.id == 1
      && r.0.value.name == patch.name.GetOr(GetCompany(st).value.name)
      && r.0.value.founded == patch.founded.GetOr(GetCompany(st).value.founded)
      && r.0.value.employees == patch.employees.GetOr(GetCompany(st).value.employees)
      && r.0.value.location == patch.location.GetOr(GetCompany(st).value.location)
      && r.0.value.description == patch.description.GetOr(GetCompany(st).value.description)
      && r.0.value.vision == patch.vision.GetOr(GetCompany(st).value.vision)
      && r.0.value.mission == patch.mission.GetOr(GetCompany(st).value.mission)
      && r.0.value.achievements == OrElse(Some(patch.achievements.GetOr(GetCompany(st).value.achievements)), EmptyList)
      && r.0.value.team == OrElse(Some(patch.team.GetOr(GetCompany(st).value.team)), EmptyList)
      && GetCompany(r.1) == r.0
    ensures r.1.games == st.games && r.1.lastGameId == st.lastGameId
    ensures r.1.users == st.users && r.1.lastUserId == st.lastUserId
    ensures r.1.company.Some? <==> st.company.Some?
  {
    match GetCompany(st)
    case None => (None, st)
    case Some(existing) =>
      var st' := st.(company := Some(MergedCompanyRow(existing, patch)));
      ParseJsonFieldOfStringify(OrElse(Some(patch.achievements.GetOr(existing.achievements)), EmptyList), EmptyList);
      ParseJsonFieldOfStringify(OrElse(Some(patch.team.GetOr(existing.team)), EmptyList), EmptyList);
      (GetCompany(st'), st')
  }

  // ---------------------------------------------------------------------------
  // Users (server/db.js:289-306)

  function UserOf(id: int, row: UserRow): User {
    User(id, row.email, row.passwordHash, row.name, row.role)
  }

  predicate EmailTaken(users: map<int, UserRow>, email: string) {
    exists id :: id in users && users[id].email == email
  }

  /** The first of `ids` whose row has the email. */
  function FindByEmail(users: map<int, UserRow>, ids: seq<int>, email: string): (r: Option<int>)
    requires forall i :: 0 <= i < |ids| ==> ids[i] in users
    ensures r.Some? ==> r.value in ids && users[r.value].email == email
    ensures r.None? ==> forall i :: 0 <= i < |ids| ==> users[ids[i]].email != email
  {
    if |ids| == 0 then None
    else if users[ids[0]].email == email then Some(ids[0])
    else FindByEmail(users, ids[1..], email)
  }

  /** `getUserByEmail`; a missing email binds as NULL and matches nothing. */
  function GetUserByEmail(st: Store, email: Option<string>): (r: Option<User>)
    ensures r.Some? <==> email.Some? && EmailTaken(st.users, email.value)
    ensures r.Some? ==>
      && r.value.id in st.users && r.value == UserOf(r.value.id, st.users[r.value.id])
      && r.value.email == email.value
  {
    if email.None? then None
    else
      var ids := SortedIds(st.users.Keys);
      match FindByEmail(st.users, ids, email.value)
      case None =>
        assert !EmailTaken(st.users, email.value) by {
          forall id | id in st.users ensures st.users[id].email != email.value {
            var i :| 0 <= i < |ids| && ids[i] == id;
          }
        }
        None
      case Some(id) => Some(UserOf(id, st.users[id]))
  }

  /** Emails are unique, so the account found for an email is the only one
      with it. */
  lemma GetUserByEmailUnique(st: Store, id: int)
    requires Valid(st) && id in st.users
    ensures GetUserByEmail(st, Some(st.users[id].email)) == Some(UserOf(id, st.users[id]))
  {
  }

  function GetUserById(st: Store, id: int): (r: Option<User>)
    ensures r.Some? <==> id in st.users
    ensures r.Some? ==>
      && r.value.id == id && r.value.email == st.users[id].email
      && r.value.passwordHash == st.users[id].passwordHash
      && r.value.name == st.users[id].name && r.value.role == st.users[id].role
  {
    if id in st.users then Some(UserOf(id, st.users[id])) else None
  }

  /** `createUser`: a missing name is stored as `''` and a missing role as
      `'user'`. The insert fails on a missing email or hash (NOT NULL), on an
      email already present (UNIQUE), and when ids are exhausted; then nothing
      changes. Emails stay unique. */
  function CreateUser(st: Store, u: NewUser): (r: (Result<User, DbError>, Store))
    requires Valid(st)
    ensures Valid(r.1)
    ensures r.0.Err? ==> r.1 == st
    ensures r.0.Err? <==> (st.lastUserId == MaxRowId || u.email.None? || u.passwordHash.None?
                           || EmailTaken(st.users, u.email.value))
    ensures r.0.Ok? ==>
      && r.0.value.id == st.lastUserId + 1 && r.0.value.id !in st.users
      && Some(r.0.value.email) == u.email && Some(r.0.value.passwordHash) == u.passwordHash
      && r.0.value.name == u.name.GetOr("") && r.0.value.role == u.role.GetOr("user")
      && r.1.users.Keys == st.users.Keys + {r.0.value.id}
      && (forall id :: id in st.users ==> r.1.users[id] == st.users[id])
      && r.1.games == st.games && r.1.company == st.company
      && GetUserByEmail(r.1, u.email) == Some(r.0.value)
  {
    if st.lastUserId >= MaxRowId then (Err(RowIdExhausted), st)
    else if u.email.None? || u.passwordHash.None? then (Err(NotNullViolation), st)
    else if EmailTaken(st.users, u.email.value) then (Err(UniqueViolation), st)
    else
      var id := st.lastUserId + 1;
      var row := UserRow(u.email.value, u.passwordHash.value, u.name.GetOr(""), u.role.GetOr("user"));
      var st' := st.(users := st.users[id := row], lastUserId := id);
      assert UniqueEmails(st'.users);
      (Ok(UserOf(id, row)), st')
  }

  // ---------------------------------------------------------------------------
  // Start-up (server/db.js:76-161)

  /** The company inserted when none was supplied. */
  const DefaultCompany := CompanyFields(Some("Company"), Some(""), Some(""), Some(""), Some(""),
    Some(""), Some(""), Some(EmptyList), Some(EmptyList))

  /** The `k`-th payload of `gs` is stored, as `INSERT` writes it, under id `first + k`. */
  predicate RowsAt(games: map<int, GameRow>, first: int, gs: seq<GameFields>) {
    forall k :: 0 <= k < |gs| ==>
      GameRowOf(gs[k]).Some? && first + k in games && games[first + k] == GameRowOf(gs[k]).value
  }

  lemma {:induction false} RowsAtStep(games: map<int, GameRow>, first: int, gs: seq<GameFields>)
    requires |gs| > 0 && GameRowOf(gs[0]).Some? && first in games && games[first] == GameRowOf(gs[0]).value
    requires RowsAt(games, first + 1, gs[1..])
    ensures RowsAt(games, first, gs)
  {
    forall k | 0 <= k < |gs|
      ensures GameRowOf(gs[k]).Some? && first + k in games && games[first + k] == GameRowOf(gs[k]).value
    {
      if k > 0 {
        assert gs[k] == gs[1..][k - 1] && first + k == (first + 1) + (k - 1);
      }
    }
  }

  /** `after` is `before` with the seed games `gs` appended, in order, under
      the next `|gs|` ids; nothing else differs. */
  ghost predicate SeededFrom(before: Store, gs: seq<GameFields>, after: Store) {
    && after.company == before.company && after.users == before.users
    && after.lastGameId == before.lastGameId + |gs|
    && (forall id :: id in after.games <==> id in before.games || before.lastGameId < id <= before.lastGameId + |gs|)
    && (forall id :: id in before.games ==> after.games[id] == before.games[id])
    && RowsAt(after.games, before.lastGameId + 1, gs)
  }

  lemma SeededFromStep(st: Store, gs: seq<GameFields>, st1: Store, st2: Store)
    requires Valid(st) && |gs| > 0 && GameRowOf(gs[0]).Some?
    requires st1 == st.(games := st.games[st.lastGameId + 1 := GameRowOf(gs[0]).value], lastGameId := st.lastGameId + 1)
    requires SeededFrom(st1, gs[1..], st2)
    ensures SeededFrom(st, gs, st2)
  {
    var id := st.lastGameId + 1;
    RowsAtStep(st2.games, id, gs);
  }

  /** Inserts the seed games one by one, stopping at the first failure; the
      inserts before it stay. On success the i-th game gets id `last + 1 + i`. */
  function SeedGames(st: Store, gs: seq<GameFields>): (r: (Option<DbError>, Store))
    requires Valid(st)
    ensures Valid(r.1)
    ensures r.1.company == st.company && r.1.users == st.users && r.1.lastUserId == st.lastUserId
    ensures forall id :: id in st.games ==> id in r.1.games && r.1.games[id] == st.games[id]
    ensures r.0.None? ==> SeededFrom(st, gs, r.1)
    decreases |gs|
  {
    if |gs| == 0 then (None, st)
    else
      var inserted := InsertGame(st, gs[0]);
      if inserted.0.Err? then (Some(inserted.0.error), st)
      else
        InsertKeepsRows(st, gs[0]);
        var rest := SeedGames(inserted.1, gs[1..]);
        if rest.0.None? then SeededFromStep(st, gs, inserted.1, rest.1); rest
        else rest
  }

  /** An insert keeps every row the store held, the company and the users. */
  lemma InsertKeepsRows(st: Store, g: GameFields)
    requires Valid(st)
    ensures var r := InsertGame(st, g).1;
      && r.company == st.company && r.users == st.users && r.lastUserId == st.lastUserId
      && forall id :: id in st.games ==> id in r.games && r.games[id] == st.games[id]
  {
  }

  /** The company half of start-up: a row is inserted only when there is none. */
  function InitCompany(st: Store, defaultCompany: Option<CompanyFields>): (r: (Option<DbError>, Store))
    ensures r.1.games == st.games && r.1.lastGameId == st.lastGameId && r.1.users == st.users
    ensures r.1.lastUserId == st.lastUserId
    ensures st.company.Some? ==> r == (None, st)
    ensures st.company.None? ==>
      && (r.0.None? <==> CompanyRowOf(defaultCompany.GetOr(DefaultCompany)).Some?)
      && (r.0.None? ==> r.1.company == CompanyRowOf(defaultCompany.GetOr(DefaultCompany)))
  {
    if st.company.Some? then (None, st)
    else match CompanyRowOf(defaultCompany.GetOr(DefaultCompany))
      case None => (Some(NotNullViolation), st)
      case Some(row) => (None, st.(company := Some(row)))
  }

  /** `initializeDatabase`: inserts the default company (or the built-in one)
      only when the company table is empty, and seeds the games only when the
      games table is empty and there are defaults. A failure stops start-up;
      whatever was inserted before it stays. */
  function InitializeDatabase(st: Store, defaultGames: seq<GameFields>, defaultCompany: Option<CompanyFields>)
    : (r: (Option<DbError>, Store))
    requires Valid(st)
    ensures Valid(r.1)
    ensures r.1.users == st.users && r.1.lastUserId == st.lastUserId
    ensures st.company.Some? ==> r.1.company == st.company
    ensures st.company.None? && r.0.None? ==> r.1.company == CompanyRowOf(defaultCompany.GetOr(DefaultCompany))
    ensures r.0.None? ==> r.1.company.Some?
    ensures (|st.games| > 0 || |defaultGames| == 0) ==> r.1.games == st.games && r.1.lastGameId == st.lastGameId
    ensures |st.games| == 0 && r.0.None? ==> |r.1.games| == |defaultGames|
    ensures |st.games| == 0 && r.0.None? ==> SeededFrom(st.(company := r.1.company), defaultGames, r.1)
    ensures forall id :: id in st.games ==> id in r.1.games && r.1.games[id] == st.games[id]
    ensures st.company.None? && CompanyRowOf(defaultCompany.GetOr(DefaultCompany)).None? ==>
      r == (Some(NotNullViolation), st)
  {
    var (err, st1) := InitCompany(st, defaultCompany);
    if err.Some? then (err, st1)
    else if |st1.games| == 0 && |defaultGames| > 0 then
      var (seedErr, st2) := SeedGames(st1, defaultGames);
      assert seedErr.None? ==> |st2.games| == |defaultGames| by {
        if seedErr.None? { SeededCount(st1, defaultGames, st2); }
      }
      (seedErr, st2)
    else (None, st1)
  }

  /** Seeding an empty table leaves exactly one row per seed game. */
  lemma SeededCount(st: Store, gs: seq<GameFields>, st2: Store)
    requires |st.games| == 0 && SeededFrom(st, gs, st2)
    ensures |st2.games| == |gs|
  {
    assert st2.games.Keys == IdRange(st.lastGameId + 1, |gs|);
  }

  /** The `n` consecutive ids starting at `first`. */
  function IdRange(first: int, n: nat): (r: set<int>)
    ensures forall x :: x in r <==> first <= x < first + n
    ensures |r| == n
  {
    if n == 0 then {} else
      var r := IdRange(first, n - 1);
      assert first + n - 1 !in r;
      r + {first + n - 1}
  }
}

=== FILE: json.dfy ===
/** The text encoding of the structured columns: `JSON.stringify` and
    `JSON.parse` over the JSON values the application stores (lists of
    strings, nested objects of strings). Numbers are integers here. */
module Json {
  import opened Wrappers
  import opened Text

  datatype Json =
    | JNull
    | JBool(b: bool)
    | JNum(n: int)
    | JStr(s: string)
    | JArr(items: seq<Json>)
    | JObj(members: seq<Member>)

  /** One `"key": value` pair of an object, in insertion order. */
  datatype Member = Member(key: string, value: Json)

  /** JavaScript truthiness of a JSON value: `null`, `false`, `0` and `""` are
      falsy, every array and every object is truthy. */
  predicate Falsy(j: Json) {
    j == JNull || j == JBool(false) || j == JNum(0) || j == JStr("")
  }

  /** `x || fallback` for a property `x` that may be missing (`undefined`). */
  function OrElse(x: Option<Json>, fallback: Json): Json {
    if x.None? || Falsy(x.value) then fallback else x.value
  }

  // ---------------------------------------------------------------------------
  // JSON.stringify

  /** How `JSON.stringify` writes one character inside a string literal. */
  function EscapeChar(c: char): (r: string)
    ensures |r| > 0
  {
    if c == '"' then "\\\""
    else if c == '\\' then "\\\\"
    else if c == '\U{8}' then "\\b"
    else if c == '\t' then "\\t"
    else if c == '\n' then "\\n"
    else if c == '\U{C}' then "\\f"
    else if c == '\r' then "\\r"
    else if c < ' ' then "\\u00" + [HexChar(c as int / 16), HexChar(c as int % 16)]
    else [c]
  }

  function Escape(s: string): string {
    if |s| == 0 then "" else EscapeChar(s[0]) + Escape(s[1..])
  }

  function Quote(s: string): (r: string)
    ensures |r| >= 2 && r[0] == '"'
  {
    "\"" + Escape(s) + "\""
  }

  /** `JSON.stringify(j)`, without white space. The text is never empty and
      starts with a character that opens a value. */
  function Stringify(j: Json): (r: string)
    ensures |r| > 0 && StartsValue(r[0])
  {
    match j
    case JNull => "null"
    case JBool(b) => if b then "true" else "false"
    case JNum(n) => IntText(n)
    case JStr(s) => Quote(s)
    case JArr(items) => "[" + StringifyItems(items) + "]"
    case JObj(members) => "{" + StringifyMembers(members) + "}"
  }

  function StringifyItems(items: seq<Json>): string {
    if |items| == 0 then ""
    else if |items| == 1 then Stringify(items[0])
    else Stringify(items[0]) + "," + StringifyItems(items[1..])
  }

  function StringifyMember(m: Member): string {
    Quote(m.key) + ":" + Stringify(m.value)
  }

  function StringifyMembers(members: seq<Member>): string {
    if |members| == 0 then ""
    else if |members| == 1 then StringifyMember(members[0])
    else StringifyMember(members[0]) + "," + StringifyMembers(members[1..])
  }

  // ---------------------------------------------------------------------------
  // JSON.parse

  predicate IsJsonSpace(c: char) {
    c == ' ' || c == '\t' || c == '\n' || c == '\r'
  }

  /** First characters of a value's text. */
  predicate StartsValue(c: char) {
    c == 'n' || c == 't' || c == 'f' || c == '-' || IsDigit(c) || c == '"' || c == '[' || c == '{'
  }

  function SkipSpace(s: string): (r: string)
    ensures |r| <= |s|
  {
    if |s| > 0 && IsJsonSpace(s[0]) then SkipSpace(s[1..]) else s
  }

  /** The character named by the two-character escape `\e`. */
  function ShortEscape(e: char): Option<char> {
    if e == '"' then Some('"')
    else if e == '\\' then Some('\\')
    else if e == '/' then Some('/')
    else if e == 'b' then Some('\U{8}')
    else if e == 'f' then Some('\U{C}')
    else if e == 'n' then Some('\n')
    else if e == 'r' then Some('\r')
    else if e == 't' then Some('\t')
    else None
  }

  function Prepend(c: char, r: Option<(string, string)>): Option<(string, string)> {
    match r
    case None => None
    case Some((body, rest)) => Some(([c] + body, rest))
  }

  /** The body of a string literal up to its closing quote, decoded, and the
      text after the quote. Raw control characters are rejected, and so is a
      `\u` escape naming a UTF-16 surrogate. */
  function ParseStringBody(s: string): (r: Option<(string, string)>)
    ensures r.Some? ==> |r.value.1| < |s|
  {
    if |s| == 0 then None
    else if s[0] == '"' then Some(("", s[1..]))
    else if s[0] == '\\' then
      if |s| < 2 then None
      else if s[1] == 'u' then
        if |s| < 6 || !(forall i :: 2 <= i < 6 ==> IsHexDigit(s[i])) then None
        else
          var v := DigitsValue(s[2..6], 16);
          if v >= 0x1_0000 || (0xD800 <= v && v < 0xE000) then None
          else Prepend(v as char, ParseStringBody(s[6..]))
      else
        match ShortEscape(s[1])
        case None => None
        case Some(c) => Prepend(c, ParseStringBody(s[2..]))
    else if s[0] < ' ' then None
    else Prepend(s[0], ParseStringBody(s[1..]))
  }

  /** The digits of an integer: `0`, or a digit run not starting with `0`.
      A fraction or exponent is left in the rest, where it makes the enclosing
      parse fail. */
  function ParseNatural(u: string): (r: Option<(nat, string)>)
    ensures r.Some? ==> |r.value.1| < |u|
  {
    if |u| == 0 || !IsDigit(u[0]) then None
    else if u[0] == '0' then Some((0, u[1..]))
    else
      var k := DigitRun(u, 10);
      Some((DigitsValue(u[..k], 10), u[k..]))
  }

  /** An integer with an optional minus sign. */
  function ParseNumber(t: string): (r: Option<(Json, string)>)
    ensures r.Some? ==> |r.value.1| < |t|
  {
    if |t| > 0 && t[0] == '-' then
      match ParseNatural(t[1..])
      case None => None
      case Some((m, rest)) => Some((JNum(-(m as int)), rest))
    else
      match ParseNatural(t)
      case None => None
      case Some((m, rest)) => Some((JNum(m), rest))
  }

  /** One value after optional white space, and the text after it. */
  function ParseValue(s: string): (r: Option<(Json, string)>)
    ensures r.Some? ==> |r.value.1| < |s|
    decreases |s|, 0
  {
    var t := SkipSpace(s);
    if |t| == 0 then None
    else if StartsWith(t, "null") then Some((JNull, t[4..]))
    else if StartsWith(t, "true") then Some((JBool(true), t[4..]))
    else if StartsWith(t, "false") then Some((JBool(false), t[5..]))
    else if t[0] == '"' then
      match ParseStringBody(t[1..])
      case None => None
      case Some((body, rest)) => Some((JStr(body), rest))
    else if t[0] == '[' then ParseArray(t[1..])
    else if t[0] == '{' then ParseObject(t[1..])
    else ParseNumber(t)
  }

  /** The rest of an array after its `[`. */
  function ParseArray(s: string): (r: Option<(Json, string)>)
    ensures r.Some? ==> |r.value.1| < |s|
    decreases |s|, 2
  {
    var t := SkipSpace(s);
    if |t| > 0 && t[0] == ']' then Some((JArr([]), t[1..]))
    else
      match ParseItems(s)
      case None => None
      case Some((items, rest)) => Some((JArr(items), rest))
  }

  /** One or more comma-separated values and the closing `]`. */
  function ParseItems(s: string): (r: Option<(seq<Json>, string)>)
    ensures r.Some? ==> |r.value.1| < |s|
    decreases |s|, 1
  {
    match ParseValue(s)
    case None => None
    case Some((v, rest)) =>
      var t := SkipSpace(rest);
      if |t| > 0 && t[0] == ']' then Some(([v], t[1..]))
      else if |t| > 0 && t[0] == ',' then
        match ParseItems(t[1..])
        case None => None
        case Some((vs, rest')) => Some(([v] + vs, rest'))
      else None
  }

  /** The rest of an object after its `{`. */
  function ParseObject(s: string): (r: Option<(Json, string)>)
    ensures r.Some? ==> |r.value.1| < |s|
    decreases |s|, 2
  {
    var t := SkipSpace(s);
    if |t| > 0 && t[0] == '}' then Some((JObj([]), t[1..]))
    else
      match ParseMembers(s)
      case None => None
      case Some((members, rest)) => Some((JObj(members), rest))
  }

  /** One `"key": value` pair after optional white space. */
  function ParseMember(s: string): (r: Option<(Member, string)>)
    ensures r.Some? ==> |r.value.1| < |s|
    decreases |s|, 0
  {
    var t := SkipSpace(s);
    if |t| == 0 || t[0] != '"' then None
    else
      match ParseStringBody(t[1..])
      case None => None
      case Some((key, rest)) => ParseMemberValue(key, rest)
  }

  /** The `: value` part of a member whose key has been read. */
  function ParseMemberValue(key: string, s: string): (r: Option<(Member, string)>)
    ensures r.Some? ==> |r.value.1| < |s|
    decreases |s|, 0
  {
    var u := SkipSpace(s);
    if |u| == 0 || u[0] != ':' then None
    else
      match ParseValue(u[1..])
      case None => None
      case Some((v, rest)) => Some((Member(key, v), rest))
  }

  /** One or more comma-separated members and the closing `}`. */
  function ParseMembers(s: string): (r: Option<(seq<Member>, string)>)
    ensures r.Some? ==> |r.value.1| < |s|
    decreases |s|, 1
  {
    match ParseMember(s)
    case None => None
    case Some((m, rest)) =>
      var t := SkipSpace(rest);
      if |t| > 0 && t[0] == '}' then Some(([m], t[1..]))
      else if |t| > 0 && t[0] == ',' then
        match ParseMembers(t[1..])
        case None => None
        case Some((ms, rest')) => Some(([m] + ms, rest'))
      else None
  }

  /** `JSON.parse(s)`, with `None` for the `SyntaxError` it throws: one value,
      surrounded by nothing but white space. */
  function Parse(s: string): (r: Option<Json>)
    ensures |s| == 0 ==> r.None?
  {
    match ParseValue(s)
    case None => None
    case Some((j, rest)) => if SkipSpace(rest) == "" then Some(j) else None
  }

  // ---------------------------------------------------------------------------
  // Round trip: JSON.parse(JSON.stringify(j)) == j

  lemma SkipSpaceNoSpace(s: string)
    requires |s| == 0 || !IsJsonSpace(s[0])
    ensures SkipSpace(s) == s
  {
  }

  lemma HexEscapeValue(c: char)
    requires c < ' '
    ensures var h := "00" + [HexChar(c as int / 16), HexChar(c as int % 16)];
            (forall i :: 0 <= i < 4 ==> IsHexDigit(h[i])) && DigitsValue(h, 16) == c as int
  {
    var hi := c as int / 16;
    var lo := c as int % 16;
    var h := "00" + [HexChar(hi), HexChar(lo)];
    assert h[..3] == "00" + [HexChar(hi)];
    assert h[..3][..2] == "00";
    assert h[..3][..2][..1] == "0";
    assert h[..3][..2][..1][..0] == "";
    assert DigitsValue("0", 16) == 0;
    assert DigitsValue("00", 16) == 0;
    assert DigitsValue(h[..3], 16) == hi;
    assert DigitsValue(h, 16) == hi * 16 + lo;
  }

  /** Decoding undoes the escaping of one character. */
  lemma ParseEscapedChar(c: char, tail: string)
    ensures ParseStringBody(EscapeChar(c) + tail) == Prepend(c, ParseStringBody(tail))
  {
    if c == '"' || c == '\\' || c == '\U{8}' || c == '\t' || c == '\n' || c == '\U{C}' || c == '\r' {
      ParseShortEscape(c, tail);
    } else if c < ' ' {
      ParseHexEscape(c, tail);
    } else {
      ParsePlainChar(c, tail);
    }
  }

  lemma ParseShortEscape(c: char, tail: string)
    requires c == '"' || c == '\\' || c == '\U{8}' || c == '\t' || c == '\n' || c == '\U{C}' || c == '\r'
    ensures ParseStringBody(EscapeChar(c) + tail) == Prepend(c, ParseStringBody(tail))
  {
    var s := EscapeChar(c) + tail;
    assert |EscapeChar(c)| == 2 && s[0] == '\\' && s[1] != 'u';
    assert ShortEscape(s[1]) == Some(c);
    assert s[2..] == tail;
  }

  lemma ParseHexEscape(c: char, tail: string)
    requires c < ' '
    requires !(c == '\U{8}' || c == '\t' || c == '\n' || c == '\U{C}' || c == '\r')
    ensures ParseStringBody(EscapeChar(c) + tail) == Prepend(c, ParseStringBody(tail))
  {
    var s := EscapeChar(c) + tail;
    var h := "00" + [HexChar(c as int / 16), HexChar(c as int % 16)];
    assert EscapeChar(c) == "\\u" + h;
    HexEscapeValue(c);
    assert s[0] == '\\' && s[1] == 'u';
    assert s[2..6] == h;
    assert s[6..] == tail;
  }

  lemma ParsePlainChar(c: char, tail: string)
    requires c >= ' ' && c != '"' && c != '\\'
    ensures ParseStringBody(EscapeChar(c) + tail) == Prepend(c, ParseStringBody(tail))
  {
    var s := EscapeChar(c) + tail;
    assert EscapeChar(c) == [c];
    assert s[0] == c && s[1..] == tail;
  }

  lemma {:induction false} ParseEscaped(s: string, rest: string)
    ensures ParseStringBody(Escape(s) + "\"" + rest) == Some((s, rest))
  {
    if |s| == 0 {
      assert Escape(s) + "\"" + rest == "\"" + rest;
    } else {
      var tail := Escape(s[1..]) + "\"" + rest;
      assert Escape(s) + "\"" + rest == EscapeChar(s[0]) + tail;
      ParseEscapedChar(s[0], tail);
      ParseEscaped(s[1..], rest);
      assert [s[0]] + s[1..] == s;
    }
  }

  lemma ParseNaturalOfNatText(m: nat, rest: string)
    requires |rest| == 0 || !IsDigit(rest[0])
    ensures ParseNatural(NatText(m) + rest) == Some((m, rest))
  {
    var u := NatText(m) + rest;
    if m != 0 {
      DigitRunOfDigits(NatText(m), rest, 10);
      assert u[..|NatText(m)|] == NatText(m);
      assert u[|NatText(m)|..] == rest;
      NatTextValue(m);
    } else {
      assert NatText(0) == "0";
      assert u[1..] == rest;
    }
  }

  lemma ParseNumberNegative(t: string, m: nat, rest: string)
    requires |t| > 0 && t[0] == '-' && ParseNatural(t[1..]) == Some((m, rest))
    ensures ParseNumber(t) == Some((JNum(-(m as int)), rest))
  {
  }

  lemma ParseNumberNonNegative(t: string, m: nat, rest: string)
    requires |t| > 0 && t[0] != '-' && ParseNatural(t) == Some((m, rest))
    ensures ParseNumber(t) == Some((JNum(m), rest))
  {
  }

  lemma ParseNumberOfIntText(n: int, rest: string)
    requires |rest| == 0 || !IsDigit(rest[0])
    ensures ParseNumber(IntText(n) + rest) == Some((JNum(n), rest))
  {
    if n < 0 {
      var digits := NatText(-n);
      var t := "-" + digits + rest;
      assert t[1..] == digits + rest;
      ParseNaturalOfNatText(-n, rest);
      ParseNumberNegative(t, -n, rest);
    } else {
      var t := NatText(n) + rest;
      ParseNaturalOfNatText(n, rest);
      ParseNumberNonNegative(t, n, rest);
    }
  }

  lemma NotStartsWith(t: string, word: string)
    requires |word| > 0 && (|t| == 0 || t[0] != word[0])
    ensures !StartsWith(t, word)
  {
    if |word| <= |t| {
      assert t[..|word|][0] != word[0];
    }
  }

  /** `ParseValue` on text that starts with none of the keywords' letters. */
  lemma ParseValueDispatch(t: string)
    requires |t| > 0 && !IsJsonSpace(t[0]) && t[0] != 'n' && t[0] != 't' && t[0] != 'f'
    ensures ParseValue(t) ==
      if t[0] == '"' then
        match ParseStringBody(t[1..])
        case None => None
        case Some((body, rest)) => Some((JStr(body), rest))
      else if t[0] == '[' then ParseArray(t[1..])
      else if t[0] == '{' then ParseObject(t[1..])
      else ParseNumber(t)
  {
    SkipSpaceNoSpace(t);
    NotStartsWith(t, "null");
    NotStartsWith(t, "true");
    NotStartsWith(t, "false");
  }

  lemma ParseKeyword(t: string, word: string, j: Json, rest: string)
    requires (word, j) in {("null", JNull), ("true", JBool(true)), ("false", JBool(false))}
    requires t == word + rest
    ensures ParseValue(t) == Some((j, rest))
  {
    SkipSpaceNoSpace(t);
    assert t[|word|..] == rest;
    if word == "false" {
      assert t[..4] != "null" && t[..4] != "true";
    } else if word == "true" {
      assert t[..4] != "null";
    }
  }

  lemma ParseStringLiteral(s: string, rest: string)
    ensures ParseValue(Quote(s) + rest) == Some((JStr(s), rest))
  {
    var t := Quote(s) + rest;
    ParseValueDispatch(t);
    assert t[1..] == Escape(s) + "\"" + rest;
    ParseEscaped(s, rest);
  }

  lemma ParseNumberLiteral(n: int, rest: string)
    requires |rest| == 0 || !IsDigit(rest[0])
    ensures ParseValue(IntText(n) + rest) == Some((JNum(n), rest))
  {
    var t := IntText(n) + rest;
    assert t[0] == '-' || IsDigit(t[0]);
    ParseValueDispatch(t);
    ParseNumberOfIntText(n, rest);
  }

  lemma ParseArrayEmpty(rest: string)
    ensures ParseArray("]" + rest) == Some((JArr([]), rest))
  {
    SkipSpaceNoSpace("]" + rest);
    assert ("]" + rest)[1..] == rest;
  }

  lemma ParseArrayNonEmpty(s: string, items: seq<Json>, rest: string)
    requires |s| > 0 && !IsJsonSpace(s[0]) && s[0] != ']'
    requires ParseItems(s) == Some((items, rest))
    ensures ParseArray(s) == Some((JArr(items), rest))
  {
    SkipSpaceNoSpace(s);
  }

  lemma ParseObjectEmpty(rest: string)
    ensures ParseObject("}" + rest) == Some((JObj([]), rest))
  {
    SkipSpaceNoSpace("}" + rest);
    assert ("}" + rest)[1..] == rest;
  }

  lemma ParseObjectNonEmpty(s: string, members: seq<Member>, rest: string)
    requires |s| > 0 && !IsJsonSpace(s[0]) && s[0] != '}'
    requires ParseMembers(s) == Some((members, rest))
    ensures ParseObject(s) == Some((JObj(members), rest))
  {
    SkipSpaceNoSpace(s);
  }

  lemma ParseArrayLiteral(items: seq<Json>, rest: string)
    requires |items| > 0 ==> ParseItems(StringifyItems(items) + "]" + rest) == Some((items, rest))
    ensures ParseValue("[" + (StringifyItems(items) + "]" + rest)) == Some((JArr(items), rest))
  {
    var inner := StringifyItems(items) + "]" + rest;
    var t := "[" + inner;
    ParseValueDispatch(t);
    assert t[1..] == inner;
    if |items| == 0 {
      assert inner == "]" + rest;
      ParseArrayEmpty(rest);
    } else {
      StringifyItemsStart(items);
      ParseArrayNonEmpty(inner, items, rest);
    }
  }

  lemma ParseObjectLiteral(members: seq<Member>, rest: string)
    requires |members| > 0 ==> ParseMembers(StringifyMembers(members) + "}" + rest) == Some((members, rest))
    ensures ParseValue("{" + (StringifyMembers(members) + "}" + rest)) == Some((JObj(members), rest))
  {
    var inner := StringifyMembers(members) + "}" + rest;
    var t := "{" + inner;
    ParseValueDispatch(t);
    assert t[1..] == inner;
    if |members| == 0 {
      assert inner == "}" + rest;
      ParseObjectEmpty(rest);
    } else {
      StringifyMembersStart(members);
      ParseObjectNonEmpty(inner, members, rest);
    }
  }

  lemma {:induction false} ParseStringified(j: Json, rest: string)
    requires |rest| == 0 || !IsDigit(rest[0])
    ensures ParseValue(Stringify(j) + rest) == Some((j, rest))
    decreases j, 3
  {
    match j
    case JNull => ParseKeyword(Stringify(j) + rest, "null", j, rest);
    case JBool(b) =>
      if b { ParseKeyword(Stringify(j) + rest, "true", j, rest); }
      else { ParseKeyword(Stringify(j) + rest, "false", j, rest); }
    case JNum(n) => ParseNumberLiteral(n, rest);
    case JStr(s) => ParseStringLiteral(s, rest);
    case JArr(items) => ParseStringifiedArray(items, rest);
    case JObj(members) => ParseStringifiedObject(members, rest);
  }

  lemma {:induction false} ParseStringifiedArray(items: seq<Json>, rest: string)
    ensures ParseValue(Stringify(JArr(items)) + rest) == Some((JArr(items), rest))
    decreases items, 2
  {
    if |items| > 0 { ParseStringifiedItems(items, rest); }
    ParseArrayLiteral(items, rest);
    assert Stringify(JArr(items)) + rest == "[" + (StringifyItems(items) + "]" + rest);
  }

  lemma {:induction false} ParseStringifiedObject(members: seq<Member>, rest: string)
    ensures ParseValue(Stringify(JObj(members)) + rest) == Some((JObj(members), rest))
    decreases members, 2
  {
    if |members| > 0 { ParseStringifiedMembers(members, rest); }
    ParseObjectLiteral(members, rest);
    assert Stringify(JObj(members)) + rest == "{" + (StringifyMembers(members) + "}" + rest);
  }

  lemma ParseItemsLast(s: string, v: Json, rest: string)
    requires ParseValue(s) == Some((v, "]" + rest))
    ensures ParseItems(s) == Some(([v], rest))
  {
    SkipSpaceNoSpace("]" + rest);
    assert ("]" + rest)[1..] == rest;
  }

  lemma ParseItemsMore(s: string, v: Json, after: string, vs: seq<Json>, rest: string)
    requires ParseValue(s) == Some((v, "," + after))
    requires ParseItems(after) == Some((vs, rest))
    ensures ParseItems(s) == Some(([v] + vs, rest))
  {
    SkipSpaceNoSpace("," + after);
    assert ("," + after)[1..] == after;
  }

  lemma ParseMembersLast(s: string, m: Member, rest: string)
    requires ParseMember(s) == Some((m, "}" + rest))
    ensures ParseMembers(s) == Some(([m], rest))
  {
    SkipSpaceNoSpace("}" + rest);
    assert ("}" + rest)[1..] == rest;
  }

  lemma ParseMembersMore(s: string, m: Member, after: string, ms: seq<Member>, rest: string)
    requires ParseMember(s) == Some((m, "," + after))
    requires ParseMembers(after) == Some((ms, rest))
    ensures ParseMembers(s) == Some(([m] + ms, rest))
  {
    SkipSpaceNoSpace("," + after);
    assert ("," + after)[1..] == after;
  }

  lemma ParseMemberKey(s: string, key: string, rest: string)
    requires |s| > 0 && s[0] == '"' && ParseStringBody(s[1..]) == Some((key, rest))
    ensures ParseMember(s) == ParseMemberValue(key, rest)
  {
    SkipSpaceNoSpace(s);
  }

  lemma StringifyItemsStart(items: seq<Json>)
    requires |items| > 0
    ensures var s := StringifyItems(items); |s| > 0 && s[0] == Stringify(items[0])[0]
  {
  }

  lemma StringifyMembersStart(members: seq<Member>)
    requires |members| > 0
    ensures var s := StringifyMembers(members); |s| > 0 && s[0] == '"'
  {
  }

  lemma {:induction false} ParseStringifiedItems(items: seq<Json>, rest: string)
    requires |items| > 0
    ensures ParseItems(StringifyItems(items) + "]" + rest) == Some((items, rest))
    decreases items, 1
  {
    var s := StringifyItems(items) + "]" + rest;
    if |items| == 1 {
      ItemsLayoutOne(items, rest);
      ParseStringified(items[0], "]" + rest);
      ParseItemsLast(s, items[0], rest);
      assert [items[0]] == items;
    } else {
      var after := StringifyItems(items[1..]) + "]" + rest;
      ItemsLayoutMore(items, rest);
      ParseStringified(items[0], "," + after);
      ParseStringifiedItems(items[1..], rest);
      ParseItemsMore(s, items[0], after, items[1..], rest);
      assert [items[0]] + items[1..] == items;
    }
  }

  lemma ParseStringifiedMember(m: Member, rest: string)
    requires |rest| == 0 || !IsDigit(rest[0])
    ensures ParseMember(StringifyMember(m) + rest) == Some((m, rest))
    decreases m, 1
  {
    var afterKey := ":" + Stringify(m.value) + rest;
    MemberLayout(m, rest);
    var s := Quote(m.key) + afterKey;
    QuoteLayout(m.key, afterKey);
    ParseEscaped(m.key, afterKey);
    ParseMemberKey(s, m.key, afterKey);
    ParseStringifiedMemberValue(m, rest);
  }

  lemma MemberLayout(m: Member, rest: string)
    ensures StringifyMember(m) + rest == Quote(m.key) + (":" + Stringify(m.value) + rest)
  {
  }

  lemma QuoteLayout(key: string, after: string)
    ensures var s := Quote(key) + after; |s| > 0 && s[0] == '"' && s[1..] == Escape(key) + "\"" + after
  {
  }

  lemma ParseStringifiedMemberValue(m: Member, rest: string)
    requires |rest| == 0 || !IsDigit(rest[0])
    ensures ParseMemberValue(m.key, ":" + Stringify(m.value) + rest) == Some((m, rest))
    decreases m, 0
  {
    var afterKey := ":" + Stringify(m.value) + rest;
    SkipSpaceNoSpace(afterKey);
    assert afterKey[1..] == Stringify(m.value) + rest;
    ParseStringified(m.value, rest);
  }

  lemma {:induction false} ParseStringifiedMembers(members: seq<Member>, rest: string)
    requires |members| > 0
    ensures ParseMembers(StringifyMembers(members) + "}" + rest) == Some((members, rest))
    decreases members, 1
  {
    var s := StringifyMembers(members) + "}" + rest;
    if |members| == 1 {
      MembersLayoutOne(members, rest);
      ParseStringifiedMember(members[0], "}" + rest);
      ParseMembersLast(s, members[0], rest);
      assert [members[0]] == members;
    } else {
      var after := StringifyMembers(members[1..]) + "}" + rest;
      MembersLayoutMore(members, rest);
      ParseStringifiedMember(members[0], "," + after);
      ParseStringifiedMembers(members[1..], rest);
      ParseMembersMore(s, members[0], after, members[1..], rest);
      assert [members[0]] + members[1..] == members;
    }
  }

  lemma ItemsLayoutOne(items: seq<Json>, rest: string)
    requires |items| == 1
    ensures StringifyItems(items) + "]" + rest == Stringify(items[0]) + ("]" + rest)
  {
  }

  lemma ItemsLayoutMore(items: seq<Json>, rest: string)
    requires |items| > 1
    ensures StringifyItems(items) + "]" + rest
         == Stringify(items[0]) + ("," + (StringifyItems(items[1..]) + "]" + rest))
  {
    var a := Stringify(items[0]);
    var c := StringifyItems(items[1..]);
    assert StringifyItems(items) == a + "," + c;
    Regroup(a, ",", c, "]", rest);
  }

  lemma MembersLayoutOne(members: seq<Member>, rest: string)
    requires |members| == 1
    ensures StringifyMembers(members) + "}" + rest == StringifyMember(members[0]) + ("}" + rest)
  {
  }

  lemma MembersLayoutMore(members: seq<Member>, rest: string)
    requires |members| > 1
    ensures StringifyMembers(members) + "}" + rest
         == StringifyMember(members[0]) + ("," + (StringifyMembers(members[1..]) + "}" + rest))
  {
    var a := StringifyMember(members[0]);
    var c := StringifyMembers(members[1..]);
    assert StringifyMembers(members) == a + "," + c;
    Regroup(a, ",", c, "}", rest);
  }

  lemma Regroup(a: string, b: string, c: string, d: string, e: string)
    ensures a + b + c + d + e == a + (b + (c + d + e))
  {
  }

  /** `JSON.parse(JSON.stringify(j))` gives `j` back. */
  lemma ParseOfStringify(j: Json)
    ensures Parse(Stringify(j)) == Some(j)
  {
    ParseStringified(j, "");
    assert Stringify(j) + "" == Stringify(j);
  }
}

=== FILE: lists.dfy ===
/** The array operations the pages rely on, over sequences: `filter`, a
    stable `sort` with a comparator, and `[...new Set(xs)]`. */
module Lists {

  // ---------------------------------------------------------------------------
  // `xs.filter(keep)`

  function Filter<T(!new)>(xs: seq<T>, keep: T -> bool): (r: seq<T>)
    ensures |r| <= |xs|
    ensures forall x :: x in r <==> x in xs && keep(x)
  {
    if |xs| == 0 then []
    else
      var rest := Filter(xs[1..], keep);
      assert xs == [xs[0]] + xs[1..];
      if keep(xs[0]) then [xs[0]] + rest else rest
  }

  /** `filter` keeps every copy of a passing element and none of the others. */
  lemma {:induction false} FilterCounts<T(!new)>(xs: seq<T>, keep: T -> bool)
    ensures forall x :: multiset(Filter(xs, keep))[x] == if keep(x) then multiset(xs)[x] else 0
  {
    if |xs| > 0 {
      FilterCounts(xs[1..], keep);
      assert xs == [xs[0]] + xs[1..];
    }
  }

  /** Elements ordered by a relation stay ordered after filtering: `filter`
      keeps the relative order. */
  lemma {:induction false} FilterKeepsOrder<T(!new)>(xs: seq<T>, keep: T -> bool, before: (T, T) -> bool)
    requires forall i, j :: 0 <= i < j < |xs| ==> before(xs[i], xs[j])
    ensures forall i, j :: 0 <= i < j < |Filter(xs, keep)| ==> before(Filter(xs, keep)[i], Filter(xs, keep)[j])
  {
    if |xs| > 0 {
      var tail := xs[1..];
      FilterKeepsOrder(tail, keep, before);
      var rest := Filter(tail, keep);
      if keep(xs[0]) {
        forall j | 0 <= j < |rest| ensures before(xs[0], rest[j]) {
          HeadBeforeTail(xs, before, rest[j]);
        }
        assert Filter(xs, keep) == [xs[0]] + rest;
      } else {
        assert Filter(xs, keep) == rest;
      }
    }
  }

  lemma HeadBeforeTail<T>(xs: seq<T>, before: (T, T) -> bool, y: T)
    requires |xs| > 0 && forall i, j :: 0 <= i < j < |xs| ==> before(xs[i], xs[j])
    requires y in xs[1..]
    ensures before(xs[0], y)
  {
    var k :| 0 <= k < |xs[1..]| && xs[1..][k] == y;
    assert xs[k + 1] == y;
  }

  // ---------------------------------------------------------------------------
  // `xs.sort(cmp)`: a positive `cmp(a, b)` puts `b` before `a`

  /** On the elements of `u`, `cmp` orders every pair and chains: what
      `sort` needs of a comparator for its result to be ordered. */
  ghost predicate ConsistentOn<T>(cmp: (T, T) -> int, u: seq<T>) {
    && (forall a, b :: a in u && b in u ==> cmp(a, b) <= 0 || cmp(b, a) <= 0)
    && (forall a, b, c :: a in u && b in u && c in u && cmp(a, b) <= 0 && cmp(b, c) <= 0 ==> cmp(a, c) <= 0)
  }

  ghost predicate SortedBy<T>(xs: seq<T>, cmp: (T, T) -> int) {
    forall i, j :: 0 <= i < j < |xs| ==> cmp(xs[i], xs[j]) <= 0
  }

  /** Puts `x` after every element that does not compare above it. */
  function Insert<T(!new)>(x: T, s: seq<T>, cmp: (T, T) -> int): (r: seq<T>)
    ensures |r| == |s| + 1
    ensures multiset(r) == multiset(s) + multiset{x}
    ensures forall y :: y in r <==> y in s || y == x
  {
    if |s| == 0 then [x]
    else if cmp(s[0], x) > 0 then [x] + s
    else
      assert s == [s[0]] + s[1..];
      [s[0]] + Insert(x, s[1..], cmp)
  }

  /** Insertion sort, taking elements in their original order: elements that
      compare equal keep their relative order, as the stable `sort` of
      ECMAScript 2019 requires. The result is always a permutation. */
  function Sort<T(!new)>(xs: seq<T>, cmp: (T, T) -> int): (r: seq<T>)
    ensures |r| == |xs|
    ensures multiset(r) == multiset(xs)
    ensures forall y :: y in r <==> y in xs
  {
    if |xs| == 0 then []
    else
      var init := xs[..|xs| - 1];
      assert xs == init + [xs[|xs| - 1]];
      Insert(xs[|xs| - 1], Sort(init, cmp), cmp)
  }

  lemma {:induction false} InsertSorted<T(!new)>(x: T, s: seq<T>, cmp: (T, T) -> int, u: seq<T>)
    requires ConsistentOn(cmp, u) && x in u && (forall y :: y in s ==> y in u)
    requires SortedBy(s, cmp)
    ensures SortedBy(Insert(x, s, cmp), cmp)
  {
    if |s| > 0 {
      if cmp(s[0], x) > 0 {
        forall j | 0 <= j < |s| ensures cmp(x, s[j]) <= 0 {
          assert s[0] in u && s[j] in u;
          assert cmp(x, s[0]) <= 0;
          if j > 0 { assert cmp(s[0], s[j]) <= 0; }
        }
      } else {
        var tail := s[1..];
        InsertSorted(x, tail, cmp, u);
        var rest := Insert(x, tail, cmp);
        forall j | 0 <= j < |rest| ensures cmp(s[0], rest[j]) <= 0 {
          if rest[j] != x {
            HeadBeforeTail(s, (a, b) => cmp(a, b) <= 0, rest[j]);
          }
        }
        assert Insert(x, s, cmp) == [s[0]] + rest;
      }
    }
  }

  /** With a comparator consistent on the elements, the result is in order. */
  lemma {:induction false} SortSorted<T(!new)>(xs: seq<T>, cmp: (T, T) -> int)
    requires ConsistentOn(cmp, xs)
    ensures SortedBy(Sort(xs, cmp), cmp)
  {
    if |xs| > 0 {
      var init := xs[..|xs| - 1];
      var last := xs[|xs| - 1];
      assert xs == init + [last];
      ConsistentOnPart(cmp, xs, init);
      SortSorted(init, cmp);
      InsertSorted(last, Sort(init, cmp), cmp, xs);
    }
  }

  lemma ConsistentOnPart<T>(cmp: (T, T) -> int, u: seq<T>, v: seq<T>)
    requires ConsistentOn(cmp, u) && forall y :: y in v ==> y in u
    ensures ConsistentOn(cmp, v)
  {
  }

  /** `xs` without its elements outside one rank of `cmp`: what stability is
      stated on. `same` must select elements that all compare equal. */
  ghost predicate OneRank<T>(cmp: (T, T) -> int, u: seq<T>, same: T -> bool) {
    forall a, b :: a in u && b in u && same(a) && same(b) ==> cmp(a, b) <= 0
  }

  lemma {:induction false} FilterAppend<T(!new)>(a: seq<T>, b: seq<T>, keep: T -> bool)
    ensures Filter(a + b, keep) == Filter(a, keep) + Filter(b, keep)
  {
    if |a| == 0 {
      assert a + b == b;
    } else {
      var ab := a + b;
      assert ab[0] == a[0] && ab[1..] == a[1..] + b;
      FilterAppend(a[1..], b, keep);
      var restA := Filter(a[1..], keep);
      var restAB := Filter(ab[1..], keep);
      assert restAB == restA + Filter(b, keep);
      if keep(a[0]) {
        assert Filter(ab, keep) == [a[0]] + restAB;
        assert Filter(a, keep) == [a[0]] + restA;
      } else {
        assert Filter(ab, keep) == restAB;
        assert Filter(a, keep) == restA;
      }
    }
  }

  /** Nothing in `s` up to an element of `x`'s rank sorts after `x`: where
      `Insert` puts `x`, it is behind every element of its rank. */
  ghost predicate NoneAboveRank<T>(x: T, s: seq<T>, cmp: (T, T) -> int, same: T -> bool) {
    same(x) ==> forall i, j :: 0 <= i <= j < |s| && same(s[j]) ==> cmp(s[i], x) <= 0
  }

  lemma {:induction false} FilterInsert<T(!new)>(x: T, s: seq<T>, cmp: (T, T) -> int, same: T -> bool)
    requires NoneAboveRank(x, s, cmp, same)
    ensures Filter(Insert(x, s, cmp), same) == Filter(s, same) + Filter([x], same)
  {
    FilterSingle(x, same);
    if |s| == 0 {
      assert Insert(x, s, cmp) == [x];
      assert Filter(s, same) == [];
    } else if cmp(s[0], x) > 0 {
      assert Insert(x, s, cmp) == [x] + s;
      FilterAppend([x], s, same);
      if same(x) {
        FilterNone(s, same);
      }
    } else {
      var tail := s[1..];
      assert [s[0]] + tail == s;
      assert NoneAboveRank(x, tail, cmp, same) by {
        if same(x) {
          forall i, j | 0 <= i <= j < |tail| && same(tail[j]) ensures cmp(tail[i], x) <= 0 {
            assert tail[i] == s[i + 1] && tail[j] == s[j + 1];
          }
        }
      }
      FilterInsert(x, tail, cmp, same);
      var ins := Insert(x, tail, cmp);
      assert Insert(x, s, cmp) == [s[0]] + ins;
      FilterAppend([s[0]], ins, same);
      FilterAppend([s[0]], tail, same);
      calc {
        Filter(Insert(x, s, cmp), same);
        Filter([s[0]], same) + Filter(ins, same);
        Filter([s[0]], same) + (Filter(tail, same) + Filter([x], same));
        (Filter([s[0]], same) + Filter(tail, same)) + Filter([x], same);
        Filter(s, same) + Filter([x], same);
      }
    }
  }

  lemma {:induction false} FilterNone<T(!new)>(xs: seq<T>, keep: T -> bool)
    requires forall i :: 0 <= i < |xs| ==> !keep(xs[i])
    ensures Filter(xs, keep) == []
  {
    if |xs| > 0 {
      FilterNone(xs[1..], keep);
    }
  }

  lemma FilterSingle<T(!new)>(x: T, keep: T -> bool)
    ensures Filter([x], keep) == if keep(x) then [x] else []
  {
    assert [x][1..] == [];
  }

  /** In an ordered list drawn from `u`, nothing before an element of `x`'s
      rank sorts after `x`. */
  lemma SortedNoneAboveRank<T(!new)>(x: T, s: seq<T>, cmp: (T, T) -> int, u: seq<T>, same: T -> bool)
    requires ConsistentOn(cmp, u) && OneRank(cmp, u, same)
    requires x in u && (forall y :: y in s ==> y in u) && SortedBy(s, cmp)
    ensures NoneAboveRank(x, s, cmp, same)
  {
    if same(x) {
      forall i, j | 0 <= i <= j < |s| && same(s[j]) ensures cmp(s[i], x) <= 0 {
        assert s[i] in u && s[j] in u;
        assert cmp(s[j], x) <= 0;
        if i < j { assert cmp(s[i], s[j]) <= 0; }
      }
    }
  }

  /** Stability: among elements of one rank, the sorted order is the original
      order. */
  lemma {:induction false} SortStable<T(!new)>(xs: seq<T>, cmp: (T, T) -> int, same: T -> bool)
    requires ConsistentOn(cmp, xs) && OneRank(cmp, xs, same)
    ensures Filter(Sort(xs, cmp), same) == Filter(xs, same)
  {
    if |xs| > 0 {
      var init := xs[..|xs| - 1];
      var last := xs[|xs| - 1];
      assert xs == init + [last];
      ConsistentOnPart(cmp, xs, init);
      SortStable(init, cmp, same);
      SortSorted(init, cmp);
      SortedNoneAboveRank(last, Sort(init, cmp), cmp, xs, same);
      FilterInsert(last, Sort(init, cmp), cmp, same);
      FilterAppend(init, [last], same);
    }
  }

  /** A comparator that calls every pair equal leaves the order as it was. */
  lemma {:induction false} SortUnchanged<T(!new)>(xs: seq<T>, cmp: (T, T) -> int)
    requires forall a, b :: cmp(a, b) == 0
    ensures Sort(xs, cmp) == xs
  {
    if |xs| > 0 {
      var init := xs[..|xs| - 1];
      var last := xs[|xs| - 1];
      SortUnchanged(init, cmp);
      InsertAtEnd(last, init, cmp);
      InitThenLast(xs);
      assert Sort(xs, cmp) == Insert(last, init, cmp);
    }
  }

  lemma InitThenLast<T>(xs: seq<T>)
    requires |xs| > 0
    ensures xs[..|xs| - 1] + [xs[|xs| - 1]] == xs
  {
  }

  lemma {:induction false} InsertAtEnd<T(!new)>(x: T, s: seq<T>, cmp: (T, T) -> int)
    requires forall i :: 0 <= i < |s| ==> cmp(s[i], x) <= 0
    ensures Insert(x, s, cmp) == s + [x]
  {
    if |s| > 0 {
      InsertAtEnd(x, s[1..], cmp);
      assert [s[0]] + (s[1..] + [x]) == s + [x];
    }
  }

  /** Two elements swap exactly when the first compares above the second. */
  lemma SortPair<T(!new)>(x: T, y: T, cmp: (T, T) -> int)
    ensures Sort([x, y], cmp) == if cmp(x, y) > 0 then [y, x] else [x, y]
  {
    assert [x, y][..1] == [x];
    assert [x][..0] == [];
    assert Sort([x], cmp) == [x];
    assert Insert(y, [x], cmp) == if cmp(x, y) > 0 then [y, x] else [x, y] by {
      assert [x][1..] == [];
    }
  }

  // ---------------------------------------------------------------------------
  // `[...new Set(xs)]`

  /** The distinct elements of `xs`, each where it first occurs. */
  function Distinct<T(==,!new)>(xs: seq<T>): (r: seq<T>)
    ensures forall x :: x in r <==> x in xs
    ensures forall i, j :: 0 <= i < j < |r| ==> r[i] != r[j]
  {
    if |xs| == 0 then []
    else
      var d := Distinct(xs[..|xs| - 1]);
      assert xs == xs[..|xs| - 1] + [xs[|xs| - 1]];
      if xs[|xs| - 1] in d then d else d + [xs[|xs| - 1]]
  }

  lemma DistinctPair<T(!new)>(x: T, y: T)
    ensures Distinct([x, y]) == if x == y then [x] else [x, y]
  {
    assert [x, y][..1] == [x];
    assert [x][..0] == [];
    assert Distinct([x]) == [x];
  }

  /** The position of the first occurrence of `x`. */
  function FirstIndex<T(==)>(xs: seq<T>, x: T): (k: nat)
    requires x in xs
    ensures k < |xs| && xs[k] == x && x !in xs[..k]
  {
    if xs[0] == x then 0
    else
      assert xs == [xs[0]] + xs[1..];
      var k := 1 + FirstIndex(xs[1..], x);
      assert xs[..k] == [xs[0]] + xs[1..][..k - 1];
      k
  }

  /** The distinct elements appear in the order of their first occurrences. */
  lemma {:induction false} DistinctFirstOccurrenceOrder<T(!new)>(xs: seq<T>)
    ensures forall i, j :: 0 <= i < j < |Distinct(xs)| ==>
      FirstIndex(xs, Distinct(xs)[i]) < FirstIndex(xs, Distinct(xs)[j])
  {
    if |xs| > 0 {
      var init := xs[..|xs| - 1];
      var last := xs[|xs| - 1];
      assert init + [last] == xs;
      DistinctFirstOccurrenceOrder(init);
      var d := Distinct(init);
      var r := Distinct(xs);
      assert r == if last in d then d else d + [last];
      forall i, j | 0 <= i < j < |r| ensures FirstIndex(xs, r[i]) < FirstIndex(xs, r[j]) {
        FirstIndexOfPrefix(init, [last], r[i]);
        if j < |d| {
          FirstIndexOfPrefix(init, [last], r[j]);
        } else {
          assert r[j] == last && last !in init;
          assert FirstIndex(xs, last) == |init|;
        }
      }
    }
  }

  lemma {:induction false} FirstIndexOfPrefix<T>(a: seq<T>, b: seq<T>, x: T)
    requires x in a
    ensures FirstIndex(a + b, x) == FirstIndex(a, x)
  {
    if a[0] != x {
      assert (a + b)[1..] == a[1..] + b;
      FirstIndexOfPrefix(a[1..], b, x);
    }
  }
}

=== FILE: server.dfy ===
/** The request handlers of the backend (server/index.js): token issuing and
    checking, the admin gate, and every route as a function from the store and
    the request to the response and the next store. Hashing, token signature
    checks, the payment provider and `Number` on strings are parameters. */
module Server {
  import opened Wrappers
  import opened Text
  import opened Json
  import opened Db
  import Lists

  // ---------------------------------------------------------------------------
  // Environment and responses

  /** The environment variables the handlers read; `None` is unset. */
  datatype Env = Env(
    jwtSecret: Option<string>, stripeSecretKey: Option<string>,
    checkoutSuccessUrl: Option<string>, checkoutCancelUrl: Option<string>,
    adminEmail: Option<string>, adminPassword: Option<string>)

  /** `process.env.X || fallback`: an unset or empty variable gives the fallback. */
  function EnvOr(v: Option<string>, fallback: string): (r: string)
    ensures v.Some? && v.value != "" ==> r == v.value
    ensures v.None? || v.value == "" ==> r == fallback
  {
    if v.Some? && v.value != "" then v.value else fallback
  }

  function Secret(env: Env): string {
    EnvOr(env.jwtSecret, "dev_secret_change_me")
  }

  /** The fields of a user the API ever sends back: never the password hash. */
  datatype PublicUser = PublicUser(id: int, email: string, name: string, role: string)

  /** The claims a token carries. */
  datatype Claims = Claims(id: int, email: string, role: string)

  /** A token as `jwt.sign` is asked to produce it. */
  datatype Token = Token(claims: Claims, secret: string, expiresInDays: nat)

  datatype Body =
    | Message(text: string)
    | GameBody(game: Game)
    | GameList(games: seq<Game>)
    | CompanyBody(company: Option<Company>)
    | AuthBody(token: Token, user: PublicUser)
    | ProfileBody(profile: PublicUser)
    | SessionBody(sessionId: string, url: string)
    | Health(status: string, text: string)

  datatype Response = Response(status: int, body: Body)

  const Unauthorized := Response(401, Message("Yetkisiz"))
  const InvalidToken := Response(401, Message("Ge\U{e7}ersiz token"))
  const Forbidden := Response(403, Message("Admin yetkisi gerekli"))
  const GameNotFound := Response(404, Message("Oyun bulunamad\U{131}"))
  const InvalidCredentials := Response(401, Message("Ge\U{e7}ersiz kimlik bilgileri"))

  function Public(u: User): (p: PublicUser)
    ensures p.id == u.id && p.email == u.email && p.name == u.name && p.role == u.role
  {
    PublicUser(u.id, u.email, u.name, u.role)
  }

  // ---------------------------------------------------------------------------
  // Tokens and the admin gate (server/index.js:35-60)

  /** `signToken`: the user's id, email and role, signed with the configured
      secret (or the development default) for seven days. */
  function SignToken(env: Env, u: User): (t: Token)
    ensures t.claims == Claims(u.id, u.email, u.role)
    ensures t.expiresInDays == 7
    ensures env.jwtSecret.None? || env.jwtSecret.value == "" ==> t.secret == "dev_secret_change_me"
  {
    Token(Claims(u.id, u.email, u.role), Secret(env), 7)
  }

  /** The token after `Bearer `, or `None` when the header is missing, has
      another scheme, or carries an empty token. */
  function BearerToken(header: Option<string>): (r: Option<string>)
    ensures r.Some? <==> header.Some? && StartsWith(header.value, "Bearer ") && |header.value| > 7
    ensures r.Some? ==> header.value == "Bearer " + r.value && r.value != ""
  {
    var h := header.GetOr("");
    if StartsWith(h, "Bearer ") && h[7..] != "" then
      assert h == h[..7] + h[7..];
      Some(h[7..])
    else None
  }

  /** `authMiddleware`: 401 `Yetkisiz` without a bearer token, 401 `Geçersiz
      token` when `verify` (signature and expiry under the secret) rejects it,
      otherwise the claims it decodes. */
  function Authenticate(env: Env, header: Option<string>, verify: (string, string) -> Option<Claims>)
    : (r: Result<Claims, Response>)
    ensures r.Err? ==> r.error.status == 401
    ensures BearerToken(header).None? ==> r == Err(Unauthorized)
    ensures r.Ok? <==> BearerToken(header).Some? && verify(BearerToken(header).value, Secret(env)).Some?
    ensures r.Ok? ==> Some(r.value) == verify(BearerToken(header).value, Secret(env))
    ensures BearerToken(header).Some? && r.Err? ==> r == Err(InvalidToken)
  {
    match BearerToken(header)
    case None => Err(Unauthorized)
    case Some(token) =>
      match verify(token, Secret(env))
      case None => Err(InvalidToken)
      case Some(c) => Ok(c)
  }

  /** `authMiddleware` followed by `requireAdmin`. */
  function AdminGate(env: Env, header: Option<string>, verify: (string, string) -> Option<Claims>)
    : (r: Result<Claims, Response>)
    ensures r.Ok? <==> Authenticate(env, header, verify).Ok? && Authenticate(env, header, verify).value.role == "admin"
    ensures r.Ok? ==> r.value.role == "admin"
    ensures r.Err? ==> r.error.status in {401, 403}
    ensures r.Err? && r.error.status == 403 ==> Authenticate(env, header, verify).Ok?
  {
    match Authenticate(env, header, verify)
    case Err(e) => Err(e)
    case Ok(c) => if c.role != "admin" then Err(Forbidden) else Ok(c)
  }

  /** A token this server signed for a user, presented back under the same
      secret, passes authentication with the user's claims when `verify`
      accepts exactly the tokens signed with the secret. */
  lemma SignedTokenAuthenticates(env: Env, u: User, text: string, verify: (string, string) -> Option<Claims>)
    requires text != ""
    requires verify(text, Secret(env)) == Some(SignToken(env, u).claims)
    ensures Authenticate(env, Some("Bearer " + text), verify) == Ok(Claims(u.id, u.email, u.role))
  {
    var h := "Bearer " + text;
    assert h[..7] == "Bearer " && h[7..] == text;
  }

  // ---------------------------------------------------------------------------
  // Public routes (server/index.js:232-276)

  /** `GET /api/games`: every stored game once, in id order. */
  function ListGames(st: Store): (r: Response)
    ensures r.status == 200 && r.body.GameList?
    ensures IdsAscending(r.body.games)
    ensures forall id :: id in st.games <==> id in IdsOf(r.body.games)
    ensures forall i :: 0 <= i < |r.body.games| ==>
      r.body.games[i].id in st.games && r.body.games[i] == SerializeGameRow(r.body.games[i].id, st.games[r.body.games[i].id])
    ensures r.body.games == GetGames(st)
  {
    Response(200, GameList(GetGames(st)))
  }

  /** `GET /api/games/:id`: the id is `parseInt` of the path segment. */
  function GetGame(st: Store, idParam: string): (r: Response)
    ensures r.status in {200, 404}
    ensures r.status == 200 <==> GetGameById(st, ParseInt(idParam)).Some?
    ensures r.status == 200 ==> r.body == GameBody(GetGameById(st, ParseInt(idParam)).value)
    ensures r.status == 404 ==> r == GameNotFound
  {
    match GetGameById(st, ParseInt(idParam))
    case None => GameNotFound
    case Some(g) => Response(200, GameBody(g))
  }

  /** The URL a client builds for a game, `/api/games/${id}`, leads back to
      that game. */
  lemma GetGameOfIdText(st: Store, id: int)
    requires id in st.games
    ensures GetGame(st, IntText(id)) == Response(200, GameBody(SerializeGameRow(id, st.games[id])))
  {
    ParseIntOfIntText(id, "");
    assert IntText(id) + "" == IntText(id);
  }

  /** `GET /api/company`: the single row, read back with id 1, or `null`. */
  function GetCompanyRoute(st: Store): (r: Response)
    ensures r.status == 200 && r.body.CompanyBody?
    ensures r.body.company.Some? <==> st.company.Some?
    ensures r.body.company.Some? ==> r.body.company.value.id == 1 && r.body.company.value.name == st.company.value.name
    ensures r.body.company.Some? ==> ReadsAs(r.body.company.value, st.company.value)
    ensures r.body.company == GetCompany(st)
  {
    Response(200, CompanyBody(GetCompany(st)))
  }

  /** A rating of 4.5 in hundredths. */
  const FeaturedRating := 450

  predicate IsFeatured(g: Game) {
    g.rating >= FeaturedRating
  }

  /** `GET /api/featured-games`: the listed games rated 4.5 or more, still in
      id order. */
  function FeaturedRoute(st: Store): (r: Response)
    ensures r.status == 200 && r.body.GameList?
    ensures forall g :: g in r.body.games <==> g in GetGames(st) && g.rating >= FeaturedRating
    ensures IdsAscending(r.body.games)
  {
    Lists.FilterKeepsOrder(GetGames(st), IsFeatured, IdBefore);
    Response(200, GameList(Lists.Filter(GetGames(st), IsFeatured)))
  }

  function HealthRoute(): (r: Response)
    ensures r.status == 200 && r.body.Health? && r.body.status == "OK"
  {
    Response(200, Health("OK", "Server \U{e7}al\U{131}\U{15f}\U{131}yor"))
  }

  // ---------------------------------------------------------------------------
  // Accounts (server/index.js:279-316)

  /** The fields of a register or login body; any other field (a `role`, say)
      is not read. */
  datatype Credentials = Credentials(email: Option<string>, password: Option<string>, name: Option<string>, role: Option<string>)

  /** `POST /api/auth/register`. `hashed` is what `bcrypt.hash` returns for the
      password (its salt is random). The new account is always a plain user,
      whatever the body asks for. */
  function Register(st: Store, env: Env, body: Credentials, hashed: string): (r: (Response, Store))
    requires Valid(st)
    ensures Valid(r.1)
    ensures r.0.status in {201, 400, 409}
    ensures r.0.status != 201 ==> r.1 == st
    ensures (body.email.None? || body.email.value == "" || body.password.None? || body.password.value == "")
            ==> r.0 == Response(400, Message("Email ve \U{15f}ifre gerekli"))
    ensures body.email.Some? && body.email.value != "" && body.password.Some? && body.password.value != ""
            ==> (r.0.status == 409 <==> EmailTaken(st.users, body.email.value))
    ensures body.email.Some? && body.email.value != "" && body.password.Some? && body.password.value != ""
            && !EmailTaken(st.users, body.email.value)
            ==> && (r.0.status == 201 <==> st.lastUserId < MaxRowId)
                && (r.0.status != 201 ==> r.0 == Response(400, Message("Kay\U{131}t olunurken hata olu\U{15f}tu")))
    ensures r.0.status == 201 ==>
      && r.0.body.AuthBody?
      && r.0.body.user.role == "user"
      && Some(r.0.body.user.email) == body.email
      && r.0.body.user.name == body.name.GetOr("")
      && r.0.body.token.claims == Claims(r.0.body.user.id, r.0.body.user.email, "user")
      && r.0.body.user.id in r.1.users && r.1.users[r.0.body.user.id].passwordHash == hashed
      && r.0.body.user.id !in st.users
      && r.1.users.Keys == st.users.Keys + {r.0.body.user.id}
      && (forall id :: id in st.users ==> r.1.users[id] == st.users[id])
      && r.1.games == st.games && r.1.company == st.company
  {
    if body.email.None? || body.email.value == "" || body.password.None? || body.password.value == "" then
      (Response(400, Message("Email ve \U{15f}ifre gerekli")), st)
    else if GetUserByEmail(st, body.email).Some? then
      (Response(409, Message("Bu email zaten kay\U{131}tl\U{131}")), st)
    else
      match CreateUser(st, NewUser(body.email, Some(hashed), body.name, Some("user")))
      case (Err(_), _) => (Response(400, Message("Kay\U{131}t olunurken hata olu\U{15f}tu")), st)
      case (Ok(u), st') => (Response(201, AuthBody(SignToken(env, u), Public(u))), st')
  }

  /** `POST /api/auth/login`. `compare` is `bcrypt.compare`; a missing
      password makes it throw. */
  function Login(st: Store, env: Env, body: Credentials, compare: (string, string) -> bool): (r: Response)
    ensures r.status in {200, 400, 401}
    ensures GetUserByEmail(st, body.email).None? ==> r == InvalidCredentials
    ensures r.status == 200 <==>
      && GetUserByEmail(st, body.email).Some? && body.password.Some?
      && compare(body.password.value, GetUserByEmail(st, body.email).value.passwordHash)
    ensures r.status == 200 ==>
      && r.body.AuthBody?
      && r.body.user == Public(GetUserByEmail(st, body.email).value)
      && r.body.token == SignToken(env, GetUserByEmail(st, body.email).value)
  {
    match GetUserByEmail(st, body.email)
    case None => InvalidCredentials
    case Some(u) =>
      if body.password.None? then Response(400, Message("Giri\U{15f} yap\U{131}l\U{131}rken hata olu\U{15f}tu"))
      else if !compare(body.password.value, u.passwordHash) then InvalidCredentials
      else Response(200, AuthBody(SignToken(env, u), Public(u)))
  }

  /** An unknown email and a wrong password for a known one get the same
      answer, so the response does not tell which emails are registered. */
  lemma LoginDoesNotRevealAccounts(st: Store, env: Env, unknown: Credentials, wrong: Credentials, compare: (string, string) -> bool)
    requires GetUserByEmail(st, unknown.email).None?
    requires GetUserByEmail(st, wrong.email).Some? && wrong.password.Some?
    requires !compare(wrong.password.value, GetUserByEmail(st, wrong.email).value.passwordHash)
    ensures Login(st, env, unknown, compare) == Login(st, env, wrong, compare)
  {
  }

  /** A user who has just registered can log in with the same email and
      password, provided the hash check accepts the password against the hash
      registration stored. */
  lemma RegisterThenLogin(st: Store, env: Env, body: Credentials, hashed: string, compare: (string, string) -> bool)
    requires Valid(st)
    requires Register(st, env, body, hashed).0.status == 201
    requires compare(body.password.value, hashed)
    ensures Login(Register(st, env, body, hashed).1, env, body, compare).status == 200
    ensures Login(Register(st, env, body, hashed).1, env, body, compare).body.user == Register(st, env, body, hashed).0.body.user
  {
    var created := CreateUser(st, NewUser(body.email, Some(hashed), body.name, Some("user")));
    assert created.0.Ok? && Register(st, env, body, hashed) == (Response(201, AuthBody(SignToken(env, created.0.value), Public(created.0.value))), created.1);
    assert GetUserByEmail(created.1, body.email) == Some(created.0.value);
  }

  /** `GET /api/auth/me`: the profile of the user the token names. */
  function Me(st: Store, env: Env, header: Option<string>, verify: (string, string) -> Option<Claims>): (r: Response)
    ensures Authenticate(env, header, verify).Err? ==> r == Authenticate(env, header, verify).error
    ensures Authenticate(env, header, verify).Ok? ==>
      var c := Authenticate(env, header, verify).value;
      && (c.id !in st.users ==> r == Response(404, Message("Kullan\U{131}c\U{131} bulunamad\U{131}")))
      && (c.id in st.users ==> r == Response(200, ProfileBody(Public(UserOf(c.id, st.users[c.id])))))
  {
    match Authenticate(env, header, verify)
    case Err(e) => e
    case Ok(c) =>
      match GetUserById(st, c.id)
      case None => Response(404, Message("Kullan\U{131}c\U{131} bulunamad\U{131}"))
      case Some(u) => Response(200, ProfileBody(Public(u)))
  }

  // ---------------------------------------------------------------------------
  // Checkout (server/index.js:319-349)

  /** `String(v)` for a JSON value; `undefined` is `None`. Arrays join their
      elements with commas, writing `null` elements as nothing. */
  function JsString(v: Json): (r: string)
    ensures v.JNum? ==> r == IntText(v.n)
    ensures v.JStr? ==> r == v.s
    decreases v
  {
    match v
    case JNull => "null"
    case JBool(b) => if b then "true" else "false"
    case JNum(n) => IntText(n)
    case JStr(s) => s
    case JArr(items) =>
      Join(seq(|items|, i requires 0 <= i < |items| => if items[i].JNull? then "" else JsString(items[i])), ",")
    case JObj(_) => "[object Object]"
  }

  /** `parseInt(v)` for a body field: `parseInt(String(v))`. */
  function ParseIntOf(v: Option<Json>): (r: Option<int>)
    ensures v.None? || v == Some(JNull) ==> r.None?
    ensures v.Some? && v.value.JStr? ==> r == ParseInt(v.value.s)
  {
    match v
    case None => NoDigitIsNaN("undefined")
    case Some(j) =>
      if j.JNull? then NoDigitIsNaN("null")
      else ParseInt(JsString(j))
  }

  /** `parseInt` of a word without digits. */
  function NoDigitIsNaN(w: string): (r: Option<int>)
    requires forall i :: 0 <= i < |w| ==> !IsDigit(w[i])
    ensures r.None? && r == ParseInt(w)
  {
    ParseIntWithoutDigits(w);
    ParseInt(w)
  }

  /** A game id sent as a JSON number or as its decimal text is read back exactly. */
  lemma ParseIntOfGameId(n: int)
    ensures ParseIntOf(Some(JNum(n))) == Some(n)
    ensures ParseIntOf(Some(JStr(IntText(n)))) == Some(n)
  {
    ParseIntOfIntText(n, "");
    assert IntText(n) + "" == IntText(n);
  }

  /** A missing game id is `parseInt(undefined)`, which is `NaN`. */
  lemma ParseIntOfMissing()
    ensures ParseIntOf(None) == None
  {
    var u := "undefined";
    assert forall i :: 0 <= i < |u| ==> !IsDigit(u[i]);
    ParseIntWithoutDigits(u);
  }

  /** `Number(v)`; `None` is `NaN`. `numberOfText` is `Number` on a string
      (the float grammar is not modelled). */
  function NumberOf(v: Json, numberOfText: string -> Option<real>): (r: Option<real>)
    ensures v.JNum? ==> r == Some(v.n as real)
    ensures v.JNull? ==> r == Some(0.0)
  {
    match v
    case JNull => Some(0.0)
    case JBool(b) => Some(if b then 1.0 else 0.0)
    case JNum(n) => Some(n as real)
    case JStr(s) => numberOfText(s)
    case _ => numberOfText(JsString(v))
  }

  /** `Math.max(1, Number(quantity) || 1)` with `quantity = 1` when the field
      is missing: never below one, one for anything that is not a positive
      number, and the number itself when it is one or more. */
  function Quantity(q: Option<Json>, numberOfText: string -> Option<real>): (r: real)
    ensures r >= 1.0
    ensures q.None? ==> r == 1.0
    ensures q.Some? && NumberOf(q.value, numberOfText).Some? && NumberOf(q.value, numberOfText).value >= 1.0
            ==> r == NumberOf(q.value, numberOfText).value
    ensures q.Some? && (NumberOf(q.value, numberOfText).None? || NumberOf(q.value, numberOfText).value < 1.0)
            ==> r == 1.0
  {
    var n := NumberOf(q.GetOr(JNum(1)), numberOfText);
    var x := if n.None? || n.value == 0.0 then 1.0 else n.value;
    if x < 1.0 then 1.0 else x
  }

  /** `s.substring(0, n)` */
  function Prefix(s: string, n: nat): (r: string)
    ensures |r| == if |s| <= n then |s| else n
    ensures r <= s
  {
    if |s| <= n then s else s[..n]
  }

  datatype LineItem = LineItem(currency: string, name: string, description: string, unitAmount: int, quantity: real)

  datatype CheckoutRequest = CheckoutRequest(
    mode: string, paymentMethodTypes: seq<string>, item: LineItem, successUrl: string, cancelUrl: string)

  datatype Session = Session(id: string, url: string)

  datatype CheckoutBody = CheckoutBody(gameId: Option<Json>, quantity: Option<Json>)

  /** The session the handler asks the payment provider for. The unit amount
      is the price in kuruş: the stored hundredths of a lira. */
  function CheckoutRequestFor(env: Env, game: Game, quantity: real): (r: CheckoutRequest)
    ensures r.mode == "payment" && r.paymentMethodTypes == ["card"]
    ensures r.item.currency == "try" && r.item.name == game.title && r.item.unitAmount == game.price
    ensures |r.item.description| <= 200 && r.item.description <= game.description
    ensures |game.description| <= 200 ==> r.item.description == game.description
    ensures |game.description| > 200 ==> |r.item.description| == 200
    ensures r.item.quantity == quantity
    ensures r.successUrl == EnvOr(env.checkoutSuccessUrl, "http://localhost:3000/?payment=success")
    ensures r.cancelUrl == EnvOr(env.checkoutCancelUrl, "http://localhost:3000/?payment=cancel")
  {
    CheckoutRequest("payment", ["card"],
      LineItem("try", game.title, Prefix(game.description, 200), game.price, quantity),
      EnvOr(env.checkoutSuccessUrl, "http://localhost:3000/?payment=success"),
      EnvOr(env.checkoutCancelUrl, "http://localhost:3000/?payment=cancel"))
  }

  /** `POST /api/checkout`. Without a payment key nothing else is looked at;
      then the game must exist; then the provider's answer (`None` when the
      call throws) decides between 200 and 400. The store is only read. */
  function Checkout(st: Store, env: Env, body: CheckoutBody,
                    numberOfText: string -> Option<real>,
                    createSession: CheckoutRequest -> Option<Session>): (r: Response)
    ensures env.stripeSecretKey.None? || env.stripeSecretKey.value == "" ==>
      r == Response(500, Message("Stripe yap\U{131}land\U{131}r\U{131}lmad\U{131}"))
    ensures env.stripeSecretKey.Some? && env.stripeSecretKey.value != "" ==>
      && (GetGameById(st, ParseIntOf(body.gameId)).None? ==> r == GameNotFound)
      && (GetGameById(st, ParseIntOf(body.gameId)).Some? ==>
           var req := CheckoutRequestFor(env, GetGameById(st, ParseIntOf(body.gameId)).value, Quantity(body.quantity, numberOfText));
           && (createSession(req).None? ==> r == Response(400, Message("\U{d6}deme ba\U{15f}lat\U{131}l\U{131}rken hata olu\U{15f}tu")))
           && (createSession(req).Some? ==> r == Response(200, SessionBody(createSession(req).value.id, createSession(req).value.url))))
  {
    if env.stripeSecretKey.None? || env.stripeSecretKey.value == "" then
      Response(500, Message("Stripe yap\U{131}land\U{131}r\U{131}lmad\U{131}"))
    else
      match GetGameById(st, ParseIntOf(body.gameId))
      case None => GameNotFound
      case Some(game) =>
        match createSession(CheckoutRequestFor(env, game, Quantity(body.quantity, numberOfText)))
        case None => Response(400, Message("\U{d6}deme ba\U{15f}lat\U{131}l\U{131}rken hata olu\U{15f}tu"))
        case Some(session) => Response(200, SessionBody(session.id, session.url))
  }

  // ---------------------------------------------------------------------------
  // Admin routes (server/index.js:351-390)

  /** `POST /api/admin/games` */
  function AdminCreateGame(st: Store, env: Env, header: Option<string>, verify: (string, string) -> Option<Claims>,
                           payload: GameFields): (r: (Response, Store))
    requires Valid(st)
    ensures Valid(r.1)
    ensures AdminGate(env, header, verify).Err? ==> r == (AdminGate(env, header, verify).error, st)
    ensures AdminGate(env, header, verify).Ok? ==>
      && (CreateGame(st, payload).0.Err? ==> r == (Response(400, Message("Oyun eklenirken hata olu\U{15f}tu")), st))
      && (CreateGame(st, payload).0.Ok? ==>
           r == (Response(201, GameBody(CreateGame(st, payload).0.value)), CreateGame(st, payload).1))
  {
    match AdminGate(env, header, verify)
    case Err(e) => (e, st)
    case Ok(_) =>
      match CreateGame(st, payload)
      case (Err(_), _) => (Response(400, Message("Oyun eklenirken hata olu\U{15f}tu")), st)
      case (Ok(g), st') => (Response(201, GameBody(g)), st')
  }

  /** `PUT /api/admin/games/:id` */
  function AdminUpdateGame(st: Store, env: Env, header: Option<string>, verify: (string, string) -> Option<Claims>,
                           idParam: string, patch: GameFields): (r: (Response, Store))
    requires Valid(st)
    ensures Valid(r.1)
    ensures AdminGate(env, header, verify).Err? ==> r == (AdminGate(env, header, verify).error, st)
    ensures AdminGate(env, header, verify).Ok? ==>
      && (GetGameById(st, ParseInt(idParam)).None? ==> r == (GameNotFound, st))
      && (GetGameById(st, ParseInt(idParam)).Some? ==>
           r == (Response(200, GameBody(UpdateGame(st, ParseInt(idParam), patch).0.value)), UpdateGame(st, ParseInt(idParam), patch).1))
  {
    match AdminGate(env, header, verify)
    case Err(e) => (e, st)
    case Ok(_) =>
      match UpdateGame(st, ParseInt(idParam), patch)
      case (None, st') => (GameNotFound, st')
      case (Some(g), st') => (Response(200, GameBody(g)), st')
  }

  /** `DELETE /api/admin/games/:id`: reports success whether or not the id existed. */
  function AdminDeleteGame(st: Store, env: Env, header: Option<string>, verify: (string, string) -> Option<Claims>,
                           idParam: string): (r: (Response, Store))
    ensures Valid(st) ==> Valid(r.1)
    ensures AdminGate(env, header, verify).Err? ==> r == (AdminGate(env, header, verify).error, st)
    ensures AdminGate(env, header, verify).Ok? ==>
      && r.0 == Response(200, Message("Oyun ba\U{15f}ar\U{131}yla silindi"))
      && GetGameById(r.1, ParseInt(idParam)).None?
      && r.1 == DeleteGame(st, ParseInt(idParam)).1
  {
    match AdminGate(env, header, verify)
    case Err(e) => (e, st)
    case Ok(_) => (Response(200, Message("Oyun ba\U{15f}ar\U{131}yla silindi")), DeleteGame(st, ParseInt(idParam)).1)
  }

  /** `PUT /api/admin/company`: 200 with the updated company, or with `null`
      when there is no company row. */
  function AdminUpdateCompany(st: Store, env: Env, header: Option<string>, verify: (string, string) -> Option<Claims>,
                              patch: CompanyFields): (r: (Response, Store))
    requires Valid(st)
    ensures Valid(r.1)
    ensures AdminGate(env, header, verify).Err? ==> r == (AdminGate(env, header, verify).error, st)
    ensures AdminGate(env, header, verify).Ok? ==>
      r == (Response(200, CompanyBody(UpdateCompany(st, patch).0)), UpdateCompany(st, patch).1)
  {
    match AdminGate(env, header, verify)
    case Err(e) => (e, st)
    case Ok(_) =>
      var (c, st') := UpdateCompany(st, patch);
      (Response(200, CompanyBody(c)), st')
  }

  /** The admin routes as one request type, for statements about all of them. */
  datatype AdminRequest =
    | CreateGameRequest(payload: GameFields)
    | UpdateGameRequest(idParam: string, patch: GameFields)
    | DeleteGameRequest(idParam: string)
    | UpdateCompanyRequest(companyPatch: CompanyFields)

  function HandleAdmin(st: Store, env: Env, header: Option<string>, verify: (string, string) -> Option<Claims>,
                       req: AdminRequest): (r: (Response, Store))
    requires Valid(st)
    ensures Valid(r.1)
  {
    match req
    case CreateGameRequest(p) => AdminCreateGame(st, env, header, verify, p)
    case UpdateGameRequest(id, p) => AdminUpdateGame(st, env, header, verify, id, p)
    case DeleteGameRequest(id) => AdminDeleteGame(st, env, header, verify, id)
    case UpdateCompanyRequest(p) => AdminUpdateCompany(st, env, header, verify, p)
  }

  /** No admin route changes anything without a valid admin token: a missing
      or rejected token gets 401, a valid token of a non-admin gets 403, and
      the store is the same afterwards. */
  lemma AdminRoutesNeedAdmin(st: Store, env: Env, header: Option<string>, verify: (string, string) -> Option<Claims>,
                             req: AdminRequest)
    requires Valid(st)
    ensures Authenticate(env, header, verify).Err? ==>
      HandleAdmin(st, env, header, verify, req).0.status == 401 && HandleAdmin(st, env, header, verify, req).1 == st
    ensures Authenticate(env, header, verify).Ok? && Authenticate(env, header, verify).value.role != "admin" ==>
      HandleAdmin(st, env, header, verify, req) == (Forbidden, st)
  {
  }

  // ---------------------------------------------------------------------------
  // Start-up (server/index.js:394-412)

  /** Creates the admin account named by the environment when both variables
      are set and no account has that email; `hashed` is the hash of the
      configured password. An insert failure stops start-up. */
  function SeedAdmin(st: Store, env: Env, hashed: string): (r: Result<Store, DbError>)
    requires Valid(st)
    ensures r.Ok? ==> Valid(r.value) && r.value.games == st.games && r.value.company == st.company
    ensures (env.adminEmail.None? || env.adminEmail.value == "" || env.adminPassword.None? || env.adminPassword.value == "")
            ==> r == Ok(st)
    ensures env.adminEmail.Some? && EmailTaken(st.users, env.adminEmail.value) ==> r == Ok(st)
    ensures r.Ok? && env.adminEmail.Some? && env.adminEmail.value != "" && env.adminPassword.Some? && env.adminPassword.value != ""
            ==> EmailTaken(r.value.users, env.adminEmail.value)
    ensures r.Ok? && env.adminEmail.Some? && !EmailTaken(st.users, env.adminEmail.value) && EmailTaken(r.value.users, env.adminEmail.value)
            ==> GetUserByEmail(r.value, env.adminEmail).value.role == "admin"
    ensures r.Ok? && env.adminEmail.Some? && !EmailTaken(st.users, env.adminEmail.value) && EmailTaken(r.value.users, env.adminEmail.value)
            ==> && GetUserByEmail(r.value, env.adminEmail).value.passwordHash == hashed
                && GetUserByEmail(r.value, env.adminEmail).value.name == "Admin"
                && GetUserByEmail(r.value, env.adminEmail).value.id !in st.users
                && r.value.users.Keys == st.users.Keys + {GetUserByEmail(r.value, env.adminEmail).value.id}
    ensures r.Ok? ==> forall id :: id in st.users ==> id in r.value.users && r.value.users[id] == st.users[id]
    ensures r.Err? <==>
      && env.adminEmail.Some? && env.adminEmail.value != "" && env.adminPassword.Some? && env.adminPassword.value != ""
      && !EmailTaken(st.users, env.adminEmail.value) && st.lastUserId == MaxRowId
  {
    if env.adminEmail.None? || env.adminEmail.value == "" || env.adminPassword.None? || env.adminPassword.value == "" then Ok(st)
    else if GetUserByEmail(st, env.adminEmail).Some? then Ok(st)
    else
      match CreateUser(st, NewUser(env.adminEmail, Some(hashed), Some("Admin"), Some("admin")))
      case (Err(e), _) => Err(e)
      case (Ok(_), st') => Ok(st')
  }

  /** Restarting with the same environment does not create a second admin. */
  lemma SeedAdminOnce(st: Store, env: Env, hashed: string, hashed2: string)
    requires Valid(st) && SeedAdmin(st, env, hashed).Ok?
    ensures SeedAdmin(SeedAdmin(st, env, hashed).value, env, hashed2) == Ok(SeedAdmin(st, env, hashed).value)
  {
  }

  /** Start-up: tables and defaults, then the admin account. */
  function Startup(st: Store, env: Env, defaultGames: seq<GameFields>, defaultCompany: Option<CompanyFields>, hashed: string)
    : (r: Result<Store, DbError>)
    requires Valid(st)
    ensures r.Ok? ==> Valid(r.value) && r.value.company.Some?
    ensures r.Ok? && env.adminEmail.Some? && env.adminEmail.value != "" && env.adminPassword.Some? && env.adminPassword.value != ""
            ==> EmailTaken(r.value.users, env.adminEmail.value)
    ensures r.Ok? ==> forall id :: id in st.users ==> id in r.value.users && r.value.users[id] == st.users[id]
    ensures InitializeDatabase(st, defaultGames, defaultCompany).0.Some? ==>
      r == Err(InitializeDatabase(st, defaultGames, defaultCompany).0.value)
    ensures r.Err? <==>
      || InitializeDatabase(st, defaultGames, defaultCompany).0.Some?
      || (&& env.adminEmail.Some? && env.adminEmail.value != "" && env.adminPassword.Some? && env.adminPassword.value != ""
          && !EmailTaken(st.users, env.adminEmail.value) && st.lastUserId == MaxRowId)
  {
    match InitializeDatabase(st, defaultGames, defaultCompany)
    case (Some(e), _) => Err(e)
    case (None, st1) => SeedAdmin(st1, env, hashed)
  }
}

=== FILE: text.dfy ===
/** String operations of the JavaScript runtime that the application relies on:
    decimal and hexadecimal digits, `String(n)`, `parseInt`, `startsWith`,
    `includes`, `trim`, `split` and `join`, over strings of Unicode scalar values. */
module Text {
  import opened Wrappers

  // ---------------------------------------------------------------------------
  // Digits

  predicate IsDigit(c: char) {
    '0' <= c <= '9'
  }

  predicate IsHexDigit(c: char) {
    IsDigit(c) || 'a' <= c <= 'f' || 'A' <= c <= 'F'
  }

  /** A digit of the given radix (only 10 and 16 occur in the application). */
  predicate IsDigitIn(c: char, radix: nat) {
    if radix == 16 then IsHexDigit(c) else IsDigit(c)
  }

  function DigitOf(c: char): (d: nat)
    requires IsHexDigit(c)
    ensures d < 16
    ensures IsDigit(c) ==> d < 10
  {
    if IsDigit(c) then (c - '0') as nat
    else if 'a' <= c <= 'f' then (c - 'a') as nat + 10
    else (c - 'A') as nat + 10
  }

  function DigitChar(d: nat): (c: char)
    requires d < 10
    ensures IsDigit(c) && DigitOf(c) == d
  {
    ('0' as int + d) as char
  }

  /** Lower-case hexadecimal digit, as `JSON.stringify` writes in `\u00xx`. */
  function HexChar(d: nat): (c: char)
    requires d < 16
    ensures IsHexDigit(c) && DigitOf(c) == d
  {
    if d < 10 then DigitChar(d) else ('a' as int + (d - 10)) as char
  }

  /** Big-endian value of a run of digits in the given radix. */
  function DigitsValue(ds: string, radix: nat): nat
    requires forall i :: 0 <= i < |ds| ==> IsHexDigit(ds[i])
  {
    if |ds| == 0 then 0
    else
      var init := ds[..|ds| - 1];
      assert forall i :: 0 <= i < |init| ==> init[i] == ds[i];
      var high := DigitsValue(init, radix);
      assert high * radix >= 0 by { ProductOfNats(high, radix); }
      high * radix + DigitOf(ds[|ds| - 1])
  }

  lemma ProductOfNats(a: nat, b: nat)
    ensures a * b >= 0
  {
  }

  /** Length of the longest prefix of `s` made of digits of `radix`. */
  function DigitRun(s: string, radix: nat): (k: nat)
    ensures k <= |s|
    ensures forall i :: 0 <= i < k ==> IsDigitIn(s[i], radix)
    ensures k == |s| || !IsDigitIn(s[k], radix)
  {
    if |s| == 0 || !IsDigitIn(s[0], radix) then 0
    else 1 + DigitRun(s[1..], radix)
  }

  // ---------------------------------------------------------------------------
  // Decimal text of integers: `String(n)` and `JSON.stringify(n)` for integers

  function NatText(n: nat): (r: string)
    ensures |r| > 0
    ensures forall i :: 0 <= i < |r| ==> IsDigit(r[i])
    ensures r[0] == '0' <==> n == 0
    decreases n
  {
    if n < 10 then [DigitChar(n)] else NatText(n / 10) + [DigitChar(n % 10)]
  }

  function IntText(n: int): (r: string)
    ensures |r| > 0
    ensures n >= 0 ==> r == NatText(n)
    ensures n < 0 ==> r == "-" + NatText(-n)
  {
    if n < 0 then "-" + NatText(-n) else NatText(n)
  }

  lemma {:induction false} NatTextValue(n: nat)
    ensures DigitsValue(NatText(n), 10) == n
    decreases n
  {
    var r := NatText(n);
    if n >= 10 {
      NatTextValue(n / 10);
      assert r[..|r| - 1] == NatText(n / 10);
    }
  }

  lemma {:induction false} DigitRunOfDigits(ds: string, rest: string, radix: nat)
    requires forall i :: 0 <= i < |ds| ==> IsDigitIn(ds[i], radix)
    requires |rest| == 0 || !IsDigitIn(rest[0], radix)
    ensures DigitRun(ds + rest, radix) == |ds|
    decreases |ds|
  {
    var s := ds + rest;
    if |ds| > 0 {
      assert s[0] == ds[0] && IsDigitIn(s[0], radix);
      assert s[1..] == ds[1..] + rest;
      assert forall i :: 0 <= i < |ds[1..]| ==> ds[1..][i] == ds[i + 1];
      DigitRunOfDigits(ds[1..], rest, radix);
      assert DigitRun(s, radix) == 1 + DigitRun(s[1..], radix);
    } else {
      assert s == rest;
    }
  }

  // ---------------------------------------------------------------------------
  // White space as `String.prototype.trim` and `parseInt` understand it:
  // the WhiteSpace and LineTerminator productions of ECMAScript.

  predicate IsJsSpace(c: char) {
    || c == '\t' || c == '\n' || c == '\U{B}' || c == '\U{C}' || c == '\r'
    || c == ' ' || c == '\U{A0}' || c == '\U{1680}'
    || ('\U{2000}' <= c <= '\U{200A}')
    || c == '\U{2028}' || c == '\U{2029}' || c == '\U{202F}' || c == '\U{205F}'
    || c == '\U{3000}' || c == '\U{FEFF}'
  }

  /** `s.trimStart()`: the longest suffix of `s` that does not start with white space. */
  function TrimStart(s: string): (r: string)
    ensures |r| <= |s| && r == s[|s| - |r|..]
    ensures forall i :: 0 <= i < |s| - |r| ==> IsJsSpace(s[i])
    ensures |r| == 0 || !IsJsSpace(r[0])
  {
    if |s| > 0 && IsJsSpace(s[0]) then TrimStart(s[1..]) else s
  }

  /** `s.trimEnd()`: the longest prefix of `s` that does not end with white space. */
  function TrimEnd(s: string): (r: string)
    ensures |r| <= |s| && r == s[..|r|]
    ensures forall i :: |r| <= i < |s| ==> IsJsSpace(s[i])
    ensures |r| == 0 || !IsJsSpace(r[|r| - 1])
  {
    if |s| > 0 && IsJsSpace(s[|s| - 1]) then TrimEnd(s[..|s| - 1]) else s
  }

  /** No white space at either end. */
  predicate Trimmed(s: string) {
    |s| == 0 || (!IsJsSpace(s[0]) && !IsJsSpace(s[|s| - 1]))
  }

  /** `r` sits in `s` at `i` with nothing but white space around it. */
  predicate TrimmedAt(s: string, r: string, i: int) {
    && OccursAt(s, r, i)
    && (forall k :: 0 <= k < i ==> IsJsSpace(s[k]))
    && (forall k :: i + |r| <= k < |s| ==> IsJsSpace(s[k]))
  }

  /** `s.trim()` */
  function Trim(s: string): (r: string)
    ensures Trimmed(r)
    ensures exists k :: OccursAt(s, r, k)
    ensures exists k :: TrimmedAt(s, r, k)
  {
    var a := TrimStart(s);
    var r := TrimEnd(a);
    assert TrimmedAt(s, r, |s| - |a|) && Trimmed(r) by { TrimWitness(s, a, r); }
    r
  }

  /** The prefix `r` of the suffix `a` of `s` sits in `s` where `a` starts,
      and keeps `a`'s first character. */
  lemma TrimWitness(s: string, a: string, r: string)
    requires |a| <= |s| && a == s[|s| - |a|..]
    requires |r| <= |a| && r == a[..|r|]
    requires |a| == 0 || !IsJsSpace(a[0])
    requires |r| == 0 || !IsJsSpace(r[|r| - 1])
    requires forall i :: 0 <= i < |s| - |a| ==> IsJsSpace(s[i])
    requires forall i :: |r| <= i < |a| ==> IsJsSpace(a[i])
    ensures TrimmedAt(s, r, |s| - |a|) && Trimmed(r)
  {
    var k := |s| - |a|;
    assert forall i :: 0 <= i < |r| ==> r[i] == a[i] == s[k + i];
    assert s[k..k + |r|] == r;
    assert forall i :: k + |r| <= i < |s| ==> s[i] == a[i - k];
    if |r| > 0 {
      assert r[0] == a[0];
    }
  }

  lemma TrimOfTrimmed(s: string)
    requires Trimmed(s)
    ensures Trim(s) == s
  {
  }

  lemma TrimIdempotent(s: string)
    ensures Trim(Trim(s)) == Trim(s)
  {
    TrimOfTrimmed(Trim(s));
  }

  /** Trimming never introduces a character. */
  lemma TrimKeepsOut(s: string, c: char)
    requires c !in s
    ensures c !in Trim(s)
  {
    var r := Trim(s);
    var k :| OccursAt(s, r, k);
    forall i | 0 <= i < |r|
      ensures r[i] != c
    {
      assert r[i] == s[k + i];
    }
  }

  // ---------------------------------------------------------------------------
  // `parseInt(s)` with no radix argument

  /** The unsigned part of `parseInt`: a `0x`/`0X` prefix switches to radix
      16, then the longest run of digits is read; no digit gives `None`. */
  function ParseMagnitude(u: string): Option<nat>
  {
    var hex := |u| >= 2 && u[0] == '0' && (u[1] == 'x' || u[1] == 'X');
    var radix := if hex then 16 else 10;
    var v := if hex then u[2..] else u;
    var k := DigitRun(v, radix);
    if k == 0 then None else Some(DigitsValue(v[..k], radix))
  }

  /** `parseInt(s)`: leading white space is skipped and one sign is accepted
      before the magnitude; `NaN` is `None`. Anything after the digits is ignored. */
  function ParseInt(s: string): (r: Option<int>)
    ensures (forall i :: 0 <= i < |s| ==> IsJsSpace(s[i])) ==> r.None?
    ensures |s| > 0 && '1' <= s[0] <= '9' ==> r.Some?
  {
    assert (forall i :: 0 <= i < |s| ==> IsJsSpace(s[i])) ==> ParseSigned(TrimStart(s)).None? by {
      if forall i :: 0 <= i < |s| ==> IsJsSpace(s[i]) {
        AllSpaceTrimsAway(s);
      }
    }
    assert |s| > 0 && '1' <= s[0] <= '9' ==> ParseSigned(TrimStart(s)).Some? by {
      if |s| > 0 && '1' <= s[0] <= '9' {
        LeadingDigitParses(s);
      }
    }
    ParseSigned(TrimStart(s))
  }

  lemma AllSpaceTrimsAway(s: string)
    requires forall i :: 0 <= i < |s| ==> IsJsSpace(s[i])
    ensures TrimStart(s) == ""
  {
  }

  lemma LeadingDigitParses(s: string)
    requires |s| > 0 && '1' <= s[0] <= '9'
    ensures ParseSigned(TrimStart(s)).Some?
  {
    TrimStartOfNonSpace(s);
    assert IsDigitIn(s[0], 10);
    assert DigitRun(s, 10) > 0;
  }

  /** `parseInt` after the white space: one optional sign, then the magnitude. */
  function ParseSigned(t: string): Option<int>
  {
    var negative := |t| > 0 && t[0] == '-';
    var u := if |t| > 0 && (t[0] == '-' || t[0] == '+') then t[1..] else t;
    match ParseMagnitude(u)
    case None => None
    case Some(m) => var v: int := m; Some(if negative then -v else v)
  }

  lemma TrimStartOfNonSpace(s: string)
    requires |s| > 0 && !IsJsSpace(s[0])
    ensures TrimStart(s) == s
  {
  }

  lemma ParseMagnitudeOfNatText(m: nat, rest: string)
    requires |rest| == 0 || !IsDigit(rest[0])
    requires m == 0 && |rest| > 0 ==> rest[0] != 'x' && rest[0] != 'X'
    ensures ParseMagnitude(NatText(m) + rest) == Some(m)
  {
    var digits := NatText(m);
    var u := digits + rest;
    assert !(|u| >= 2 && u[0] == '0' && (u[1] == 'x' || u[1] == 'X')) by {
      if |u| >= 2 && u[0] == '0' {
        assert m == 0;
        assert NatText(0) == "0";
        assert u[1] == rest[0];
      }
    }
    DigitRunOfDigits(digits, rest, 10);
    assert u[..|digits|] == digits;
    NatTextValue(m);
  }

  lemma ParseIntUnsigned(s: string)
    requires |s| > 0 && IsDigit(s[0])
    ensures ParseInt(s) == ParseMagnitude(s)
  {
    TrimStartOfNonSpace(s);
  }

  lemma ParseIntNegative(t: string, m: nat)
    requires ParseMagnitude(t) == Some(m)
    ensures ParseInt("-" + t) == Some(-(m as int))
  {
    var s := "-" + t;
    assert s[0] == '-' && s[1..] == t;
    TrimStartOfNonSpace(s);
  }

  /** `parseInt(String(n) + rest)` recovers `n` whenever `rest` does not continue
      the number: a route such as `/api/admin/games/${id}` carries the id back
      to the server intact. */
  lemma ParseIntOfIntText(n: int, rest: string)
    requires |rest| == 0 || !IsDigit(rest[0])
    requires n == 0 && |rest| > 0 ==> rest[0] != 'x' && rest[0] != 'X'
    ensures ParseInt(IntText(n) + rest) == Some(n)
  {
    if n < 0 {
      ParseIntOfNegativeText(n, rest);
    } else {
      ParseIntOfNatText(n, rest);
    }
  }

  lemma ParseIntOfNatText(n: int, rest: string)
    requires n >= 0 && (|rest| == 0 || !IsDigit(rest[0]))
    requires n == 0 && |rest| > 0 ==> rest[0] != 'x' && rest[0] != 'X'
    ensures ParseInt(IntText(n) + rest) == Some(n)
  {
    var s := NatText(n) + rest;
    assert IntText(n) + rest == s;
    assert s[0] == NatText(n)[0];
    ParseMagnitudeOfNatText(n, rest);
    ParseIntUnsigned(s);
  }

  lemma ParseIntOfNegativeText(n: int, rest: string)
    requires n < 0 && (|rest| == 0 || !IsDigit(rest[0]))
    ensures ParseInt(IntText(n) + rest) == Some(n)
  {
    var t := NatText(-n) + rest;
    assert IntText(n) + rest == "-" + t;
    ParseMagnitudeOfNatText(-n, rest);
    ParseIntNegative(t, -n);
  }

  /** `parseInt` of text without any digit is `NaN`. */
  lemma ParseIntWithoutDigits(s: string)
    requires forall i :: 0 <= i < |s| ==> !IsDigit(s[i])
    ensures ParseInt(s) == None
  {
  }

  // ---------------------------------------------------------------------------
  // `startsWith`, `includes`

  predicate StartsWith(s: string, prefix: string) {
    |prefix| <= |s| && s[..|prefix|] == prefix
  }

  /** `t` occurs in `s` at position `i`. */
  predicate OccursAt(s: string, t: string, i: int) {
    0 <= i && i + |t| <= |s| && s[i..i + |t|] == t
  }

  /** `s.includes(t)` */
  function Contains(s: string, t: string): (r: bool)
    ensures r <==> exists i :: OccursAt(s, t, i)
  {
    if StartsWith(s, t) then
      assert OccursAt(s, t, 0);
      true
    else if |s| == 0 then
      assert forall i :: !OccursAt(s, t, i);
      false
    else
      var r := Contains(s[1..], t);
      assert r ==> exists i :: OccursAt(s, t, i) by {
        if r {
          var i :| OccursAt(s[1..], t, i);
          assert s[1..][i..i + |t|] == s[i + 1..i + 1 + |t|];
          assert OccursAt(s, t, i + 1);
        }
      }
      assert (exists i :: OccursAt(s, t, i)) ==> r by {
        if exists i :: OccursAt(s, t, i) {
          var i :| OccursAt(s, t, i);
          assert i != 0;
          assert s[1..][i - 1..i - 1 + |t|] == s[i..i + |t|];
          assert OccursAt(s[1..], t, i - 1);
        }
      }
      r
  }

  // ---------------------------------------------------------------------------
  // `split` on one character and `join`

  /** `xs.join(sep)` */
  function Join(xs: seq<string>, sep: string): string {
    if |xs| == 0 then ""
    else if |xs| == 1 then xs[0]
    else xs[0] + sep + Join(xs[1..], sep)
  }

  /** `t` occurs somewhere in `s`. */
  ghost predicate Occurs(s: string, t: string) {
    exists k :: OccursAt(s, t, k)
  }

  /** Every item appears in the joined text. */
  lemma {:induction false} JoinHasItems(xs: seq<string>, sep: string)
    ensures forall i :: 0 <= i < |xs| ==> Occurs(Join(xs, sep), xs[i])
    decreases |xs|
  {
    if |xs| > 1 {
      var head := xs[0] + sep;
      var rest := Join(xs[1..], sep);
      JoinHasItems(xs[1..], sep);
      assert Join(xs, sep) == head + rest;
      forall i | 0 <= i < |xs|
        ensures Occurs(Join(xs, sep), xs[i])
      {
        if i == 0 {
          assert (head + rest)[..|xs[0]|] == xs[0];
          assert OccursAt(Join(xs, sep), xs[0], 0);
        } else {
          assert xs[i] == xs[1..][i - 1];
          assert Occurs(rest, xs[i]);
          var k :| OccursAt(rest, xs[i], k);
          OccursAfter(head, rest, xs[i], k);
          assert OccursAt(Join(xs, sep), xs[i], |head| + k);
        }
      }
    } else if |xs| == 1 {
      assert OccursAt(Join(xs, sep), xs[0], 0);
    }
  }

  /** An occurrence in `b` is one in `a + b`, shifted by `|a|`. */
  lemma OccursAfter(a: string, b: string, t: string, k: int)
    requires OccursAt(b, t, k)
    ensures OccursAt(a + b, t, |a| + k)
  {
    assert (a + b)[|a| + k..|a| + k + |t|] == b[k..k + |t|];
  }

  /** `s.split(c)` for a one-character separator: always at least one piece,
      and no piece contains the separator. */
  function Split(s: string, c: char): (r: seq<string>)
    ensures |r| >= 1
    ensures forall i :: 0 <= i < |r| ==> c !in r[i]
  {
    if |s| == 0 then [""]
    else
      var rest := Split(s[1..], c);
      if s[0] == c then [""] + rest
      else [[s[0]] + rest[0]] + rest[1..]
  }

  /** Joining the pieces with the separator gives the text back. */
  lemma {:induction false} JoinSplit(s: string, c: char)
    ensures Join(Split(s, c), [c]) == s
  {
    if |s| > 0 {
      var rest := Split(s[1..], c);
      JoinSplit(s[1..], c);
      if s[0] == c {
        assert s == [c] + s[1..];
      } else if |rest| == 1 {
        assert s == [s[0]] + s[1..];
      } else {
        var r := Split(s, c);
        assert r[1..] == rest[1..];
        assert s == [s[0]] + s[1..];
      }
    }
  }

  /** A text without the separator is one piece. */
  lemma {:induction false} SplitWithoutSeparator(a: string, c: char)
    requires c !in a
    ensures Split(a, c) == [a]
  {
    if |a| > 0 {
      SplitWithoutSeparator(a[1..], c);
      assert a == [a[0]] + a[1..];
    }
  }

  /** The first separator ends the first piece. */
  lemma {:induction false} SplitAtSeparator(a: string, c: char, b: string)
    requires c !in a
    ensures Split(a + [c] + b, c) == [a] + Split(b, c)
  {
    var s := a + [c] + b;
    if |a| == 0 {
      assert s[1..] == b;
    } else {
      assert s[1..] == a[1..] + [c] + b;
      SplitAtSeparator(a[1..], c, b);
      assert a == [a[0]] + a[1..];
    }
  }
}

=== FILE: wrappers.dfy ===
/** Failure-carrying wrappers shared by every module of the model. */
module Wrappers {

  /** A value that may be missing: a JavaScript `undefined`/`null`, an absent
      row, or a parse that did not succeed. */
  datatype Option<+T> = None | Some(value: T) {

    /** The wrapped value, or `default` when there is none (JavaScript `x ?? d`). */
    function GetOr(default: T): T {
      match this
      case Some(v) => v
      case None => default
    }
  }

  /** The outcome of a statement that can be rejected by the database. */
  datatype Result<+T, +E> = Ok(value: T) | Err(error: E)
}
